=== FILE: README.md ===
# Pommerman decision core in Dafny

This project models the decision core of a Pommerman team agent. It covers
four Python components:

- **Reward model** (`pommerman/helpers/reward.py`). It chooses a mode for an
  observation (Evade, Attack or Explore) and scores the observation under
  that mode. The Evade score counts the danger from bombs whose blast
  reaches the agent. The Attack score measures how much of the radius-2
  diamond around the agent is still empty and out of every blast line.
- **Simulation adapter** (`pommerman/helpers/simulator.py`). It works out
  which agent the observation belongs to and rebuilds the four agents. It
  lists the living ones and enumerates every joint action of the other
  living agents, 6^n of them. After a simulated step it reconciles the
  alive list.
- **Monte-Carlo tree** (`pommerman/helpers/mcts.py`). Each node tracks how
  many next observations it has drawn and how many remain. Expansion draws
  every action's next observations. Leaves take their own reward, parents
  take the mean and maximum of their children, and the best action is the
  one whose children average highest.
- **Reactive team agent's helpers** (`pommerman/agents/simple_team_agent.py`).
  These are the safety filters on candidate directions and the "can I bomb
  safely" test. They also cover adjacency and nearest-object searches over
  the path-search distance map, the directions threatened by bombs, the
  escape choice when threatened, and the shaping of the final random-move
  candidates.

The modules are:

- `Game`: shared vocabulary. This covers cells, the six actions, Manhattan
  distance, the 11x11 board, the bomb list flattened out of the
  blast-strength map, and list helpers (`Filter`, `IsSubsequence`).
- `Reward`, `Simulator`, `Mcts` and `TeamAgent`: one per source file.

Loops in the source are methods whose loop invariants tie them to
recursive reference definitions. Decisions without loops are functions
with named results. Each operation's contract, or a lemma about it, ties
the result to an independent characterisation: a membership iff, a round
trip, a bound, a monotonicity, or the same quantity under a corrected
definition.

Three behaviours of the code that a reader might not expect are followed as written:

- `evadeCondition` (`reward.py:47-54`) returns true when no bomb threatens
  the agent, because `0 < 5 + 0`. So the Evade mode fires with no bomb in
  range. `Reward.EvadeWithoutThreats` states this.
- `reward()` (`reward.py:40-45`) returns nothing in the Explore mode.
  `Reward.Score` returns `None` there. This reading takes `Mode.Evade` to
  equal 0 and `Mode.Attack` to equal 1, since `reward()` compares the mode
  with those integers (see "## Left out").
- The attack score counts the safe cells after the blast marking as
  written, whose downward ray also stops at an already flamed cell (see
  Findings). `Reward.CorrectedAttackScore` gives the score under the
  corrected marking, and the two are compared.

`mcts.py` does not parse: it mixes tabs and spaces, a `def` lacks its
colon, and it uses undefined names. The Monte-Carlo tree is therefore
modelled after the evident intent of its statistics, as a functional tree.

## Model

| member | source | states |
|---|---|---|
| Game.ConvertBombs | pommerman/helpers/reward.py:11-20 | every listed bomb is an on-board cell with its positive blast strength |
| Game.ConvertBombsComplete | pommerman/helpers/reward.py:11-20 | a cell is listed exactly when its blast strength is positive; no cell is listed twice |
| Game.Distance | pommerman/helpers/reward.py:143-144 | Manhattan distance is zero exactly between equal cells |
| Game.DistanceTriangle | pommerman/helpers/reward.py:143-144 | Manhattan distance obeys the triangle inequality |
| Reward.Threats | pommerman/helpers/reward.py:50-51 | the threatening bombs are exactly the listed bombs whose strength reaches the agent |
| Reward.EvadeCondition | pommerman/helpers/reward.py:47-54 | evade exactly when the summed fuse of threatening bombs is below 5 plus twice their number |
| Reward.EvadeWithoutThreats | pommerman/helpers/reward.py:47-54 | with no threatening bomb the evade trigger fires |
| Reward.EvadeAddsUrgentThreat | pommerman/helpers/reward.py:47-54 | one more threatening bomb with fuse at most 2 never switches the trigger off |
| Reward.EvadeScore | pommerman/helpers/reward.py:56-62 | the score is 100 less the penalty 2.5*(11-life) of every bomb cell whose strength reaches the agent |
| Reward.NoBombsNoPenalty | pommerman/helpers/reward.py:56-62 | with no bomb on the board the evade score stays 100 |
| Reward.PenaltyNonNegative | pommerman/helpers/reward.py:56-62 | with every fuse at most 11 the evade score never exceeds 100 |
| Reward.BoardPenaltyOneCell | pommerman/helpers/reward.py:58-61 | changing one cell's fuse changes the penalty by that cell's term alone |
| Reward.EvadeScoreMonotone | pommerman/helpers/reward.py:56-62 | a shorter fuse on a reaching bomb lowers the score by exactly 2.5 per tick; elsewhere nothing changes |
| Reward.FillArea | pommerman/helpers/reward.py:78-94 | the fill area is one of 6, 8, 9, 11, 12, 13, and 13 exactly when both coordinates are 2 or more from each edge |
| Reward.FillAreaSymmetric | pommerman/helpers/reward.py:78-94 | the fill area is unchanged by transposing or mirroring the board |
| Reward.FillAreaIsDiamond | pommerman/helpers/reward.py:78-94 | the table equals the number of on-board cells of the radius-2 diamond around the agent |
| Reward.InitialMarks | pommerman/helpers/reward.py:97-104 | a cell starts blocked exactly when it holds a rigid wall, wood or an enemy, and no cell starts flamed |
| Reward.Ray | pommerman/helpers/reward.py:109-131 | one ray only turns empty cells into flamed ones and touches no cell off its line |
| Reward.RayFlamesUntilBlocked | pommerman/helpers/reward.py:115-131 | a ray flames every on-board cell within its strength that no blocked cell precedes |
| Reward.MarkAllFlames | pommerman/helpers/reward.py:105-131 | in the corrected marking every bomb flames each unblocked cell within its strength, in every direction |
| Reward.RayFlamesOnlyReached | pommerman/helpers/reward.py:115-131 | a ray flames only cells it reaches within its strength with no blocked cell on the way |
| Reward.MarkBombOnlyReached | pommerman/helpers/reward.py:105-131 | one bomb's four rays flame only cells that bomb reaches along an unblocked line |
| Reward.MarkAllOnlyReached | pommerman/helpers/reward.py:105-131 | marking all bombs flames only cells some bomb reaches along an unblocked line |
| Reward.BlastMarksExactly | pommerman/helpers/reward.py:105-131 | in the corrected marking a cell is flamed exactly when some bomb reaches it along an unblocked line within its strength |
| Reward.SourceMarksWithinCorrected | pommerman/helpers/reward.py:105-131 | the marking as written flames no cell that the corrected marking leaves unflamed |
| Reward.DownRayStopsAtFlamedBombCell | pommerman/helpers/reward.py:108-113 | the downward ray as written stops at a bomb whose cell is already flamed and leaves the empty cell below it unflamed |
| Reward.SafeCountMonotone | pommerman/helpers/reward.py:133-141 | more marked cells never give a larger empty count |
| Reward.SafeCountAtMostFill | pommerman/helpers/reward.py:133-141 | the empty count never exceeds the fill area |
| Reward.CountRow | pommerman/helpers/reward.py:135-141 | the inner loop counts the empty cells of one window row |
| Reward.CountWindow | pommerman/helpers/reward.py:133-141 | the nested loops count the empty cells of the diamond window |
| Reward.EmptySafeArea | pommerman/helpers/reward.py:96-141 | the count is the number of empty diamond cells after the marking as written; it lies between the count under the corrected marking and the count before marking, and within the fill area |
| Reward.CorrectedEmptySafeArea | pommerman/helpers/reward.py:96-141 | the empty count under the corrected marking never exceeds the count as written nor the fill area |
| Reward.AttackRatioBounds | pommerman/helpers/reward.py:76 | the attack score lies in [0, 100], is 100 exactly when nothing is empty and 0 exactly when all is empty |
| Reward.AttackRatioDecreasing | pommerman/helpers/reward.py:76 | a larger empty area gives a strictly lower attack score |
| Reward.AttackScore | pommerman/helpers/reward.py:73-76 | the attack score is in [0, 100], is the ratio of the empty count after the marking as written to the fill area, and never exceeds the score under the corrected marking |
| Reward.CorrectedAttackScore | pommerman/helpers/reward.py:73-76 | under the corrected marking the attack score is in [0, 100] and never below the score as written |
| Reward.DecideMode | pommerman/helpers/reward.py:22-38 | Evade exactly when the evade trigger fires; Attack exactly when it does not and the attack condition holds; Explore otherwise |
| Reward.Score | pommerman/helpers/reward.py:40-45 | no score exactly in Explore; the evade score in Evade; the attack score as written, in [0, 100], in Attack |
| Simulator.MyselfIdx | pommerman/helpers/simulator.py:126-133 | the own id is the first of 10..13 that is neither the teammate nor an enemy; none exactly when all four are taken |
| Simulator.FindFromSpec | pommerman/helpers/simulator.py:89 | the search from a row-major index finds the first later cell holding the value, or none exactly when no later cell holds it |
| Simulator.FindSpec | pommerman/helpers/simulator.py:89 | the first row-major cell holding a value; none exactly when no cell holds it |
| Simulator.GetAgentSpec | pommerman/helpers/simulator.py:83-107 | an agent is alive exactly when its id is on the board; an absent agent sits at its spawn corner; the agent itself gets its observed stats and others get strength 7 and ammo 10 |
| Simulator.GetAgentsRebuilt | pommerman/helpers/simulator.py:83-107 | the four agents come in id order 10..13, each alive exactly when its id is on the board and carrying the stats its role gives it |
| Simulator.AliveIdsMembers | pommerman/helpers/simulator.py:76-81 | an id is listed alive exactly when a living agent carries it |
| Simulator.AliveIdsIncreasing | pommerman/helpers/simulator.py:76-81 | agents in increasing id order give a strictly increasing alive list of ids 10..13 |
| Simulator.AliveAgentOnBoard | pommerman/helpers/simulator.py:76-107 | an id is in the alive list of the rebuilt agents exactly when it is one of 10..13 and present on the board |
| Simulator.ObservedAliveIsOnBoard | pommerman/helpers/simulator.py:13-18 | the observed-alive list is well formed and holds exactly the agent ids present on the board |
| Simulator.ValueOfDigits | pommerman/helpers/simulator.py:35 | reading back the base-6 digits of v gives v |
| Simulator.DigitsOfValue | pommerman/helpers/simulator.py:35 | digits of a digit tuple's value give the tuple back |
| Simulator.OtherSlotsMembers | pommerman/helpers/simulator.py:30 | a slot is listed exactly when its agent is alive and is not the agent itself |
| Simulator.OtherSlotsDistinct | pommerman/helpers/simulator.py:30 | the other agents' slots are distinct, increasing and within 0..3 |
| Simulator.OtherSlotsCount | pommerman/helpers/simulator.py:30 | the other slots number one fewer than the alive list exactly when the agent itself is alive |
| Simulator.FillAt | pommerman/helpers/simulator.py:38-41 | each drawn action lands in its slot and every other slot keeps the template |
| Simulator.FillInjective | pommerman/helpers/simulator.py:38-41 | different drawn tuples give different joint actions |
| Simulator.JointActions | pommerman/helpers/simulator.py:27-42 | 6^n joint actions, all distinct and all well formed |
| Simulator.JointActionsComplete | pommerman/helpers/simulator.py:27-42 | every well-formed joint action is yielded |
| Simulator.FillProjection | pommerman/helpers/simulator.py:38-41 | a joint action is the template filled with its own projection |
| Simulator.DrawsMatchNumOfNextObs | pommerman/helpers/simulator.py:20-21 | the six own actions together draw exactly 6^n joint actions when the agent is alive |
| Simulator.ActionCombinations | pommerman/helpers/simulator.py:27-42 | none exactly when the agent cannot identify itself; otherwise 6^k well-formed joint actions |
| Simulator.Without | pommerman/helpers/simulator.py:122-123 | the result keeps exactly the elements not dropped, in order |
| Simulator.Dead | pommerman/helpers/simulator.py:122 | an id is dead exactly when it was observed alive and the simulation no longer lists it |
| Simulator.ReconcileAlive | pommerman/helpers/simulator.py:118-123 | the alive list keeps exactly the original ids not dead in the simulation, in order, and is unchanged when nothing died |
| Simulator.ReconcileAliveIsFilter | pommerman/helpers/simulator.py:118-123 | the equality shortcut gives the same list as the general filter |
| Simulator.OwnObservation | pommerman/helpers/simulator.py:112-124 | none exactly when the agent cannot identify itself; otherwise the agent's simulated observation field for field, except that the alive list keeps, in order, exactly the observed ids that did not die in the simulation, and is unchanged when nobody died |
| Mcts.NewNode | pommerman/helpers/mcts.py:79-93 | a new node has one visit, no children, minus-infinity maximum, zero aggregate, and is fully expanded exactly when it has no next observations |
| Mcts.AddChild | pommerman/helpers/mcts.py:118-123 | one drawn observation lowers the counter by one, adds one child under the action and touches no other action |
| Mcts.ExpandWith | pommerman/helpers/mcts.py:113-123 | expanding keeps drawn plus still-to-draw balanced and appends one child per drawn observation under that action only |
| Mcts.ExpandAll | pommerman/helpers/mcts.py:125-131 | expanding all six actions lowers the counter by all draws and appends each action's children |
| Mcts.ExpandAllExhausts | pommerman/helpers/mcts.py:125-134 | when every action draws a sixth of the budget, one full expansion leaves the node fully expanded |
| Mcts.ExpandAllExhaustsSimulatorBudget | pommerman/helpers/mcts.py:92-93 | with the simulator's 6^n budget and 6^(n-1) draws per action, one full expansion exhausts the budget |
| Mcts.Grow | pommerman/helpers/mcts.py:44-56 | growing keeps the node's data and does nothing at depth 0; otherwise it draws every action's observations, and the children under each action are the expanded node's children under it, each grown one level less |
| Mcts.GrowListAt | pommerman/helpers/mcts.py:44-56 | the j-th grown child is the j-th child grown |
| Mcts.MeanBetweenMinMax | pommerman/helpers/mcts.py:69-70 | a backpropagated mean lies between the smallest and largest child value |
| Mcts.Evaluate | pommerman/helpers/mcts.py:53-74 | backpropagation changes only the rewards it computes: every node keeps its observation, reward, counters and children counts |
| Mcts.EvaluateParentBounds | pommerman/helpers/mcts.py:60-70 | after backpropagation a parent with children has a finite maximum reward that some child reaches, no child exceeds, and the parent's mean does not exceed |
| Mcts.EvaluateWithin | pommerman/helpers/mcts.py:53-74 | backpropagated rewards stay within the range of the leaf rewards |
| Mcts.Average | pommerman/helpers/mcts.py:39-40 | an action has no average exactly when it has no children |
| Mcts.FirstMax | pommerman/helpers/mcts.py:36-42 | the index of the first largest value: no value is larger and every earlier one is strictly smaller |
| Mcts.BestAction | pommerman/helpers/mcts.py:36-42 | no action exactly when some action has no children; otherwise an action no worse than any other and strictly better than every earlier one |
| Mcts.NewTree | pommerman/helpers/mcts.py:24-27 | a new tree has a root-flagged fresh root with its full budget, no children, and Stop as best action |
| Mcts.Search | pommerman/helpers/mcts.py:29-42 | the search picks an action whenever it goes one level deep and every action draws; the pick is no worse than any other action and strictly better than every earlier one, so it is the first maximal action |
| TeamAgent.FilterUnsafeDirections | pommerman/agents/simple_team_agent.py:566-580 | the kept directions are, in order, exactly those whose next cell lies on no bomb's blast line |
| TeamAgent.FilterRecentlyVisited | pommerman/agents/simple_team_agent.py:583-593 | the unvisited directions in order, or all of them when none is unvisited |
| TeamAgent.MaybeBomb | pommerman/agents/simple_team_agent.py:477-503 | never without ammo; an error without a passage entry; otherwise exactly when some reachable passage is farther than the blast or off both blast lines |
| TeamAgent.StrongestIsMax | pommerman/agents/simple_team_agent.py:322-363 | a direction's entry is the largest strength of the reached bombs threatening it |
| TeamAgent.DirectionsInRangeOfBomb | pommerman/agents/simple_team_agent.py:322-363 | a direction is listed exactly when a reached bomb threatens it, with the largest such strength |
| TeamAgent.IsAdjacentEnemy | pommerman/agents/simple_team_agent.py:465-470 | true exactly when some listed enemy position is at search distance 1 |
| TeamAgent.MaxDistance | pommerman/agents/simple_team_agent.py:508 | the bound is a distance of the map no smaller than any other |
| TeamAgent.NearestPosition | pommerman/agents/simple_team_agent.py:506-517 | an error on an empty distance map; none exactly when no candidate is within radius; otherwise a nearest candidate within radius, and no later candidate within radius is as near |
| TeamAgent.NearestAmong | pommerman/agents/simple_team_agent.py:509-517 | none exactly when no candidate is within radius; otherwise a candidate within radius at the least distance of any, and no later candidate within radius is as near (the last of the nearest wins) |
| TeamAgent.FirstEscape | pommerman/agents/simple_team_agent.py:416-428 | the first threatened direction, in the map's order, that leads to a passable cell and is not stuck |
| TeamAgent.EscapeAllSides | pommerman/agents/simple_team_agent.py:412-431 | Stop exactly when no threatened direction escapes; otherwise the first that does |
| TeamAgent.OpenNeighbours | pommerman/agents/simple_team_agent.py:436-452 | exactly the on-board, unthreatened, passable-or-fog moves |
| TeamAgent.SafeNeighbours | pommerman/agents/simple_team_agent.py:433-462 | the open moves when there are any; else exactly the threatened on-board moves in the map's order; Stop exactly when there is neither |
| TeamAgent.FindSafeDirections | pommerman/agents/simple_team_agent.py:365-462 | never empty, Stop only alone, every other entry a move |
| TeamAgent.ValidInitial | pommerman/agents/simple_team_agent.py:227-232 | exactly the directions onto on-board passable cells, without repeats |
| TeamAgent.SafeInitial | pommerman/agents/simple_team_agent.py:227-234 | exactly the valid directions outside every blast line, without repeats |
| TeamAgent.PreferMoving | pommerman/agents/simple_team_agent.py:237-240 | Stop is dropped when there is a choice and is the fallback when nothing is left |
| TeamAgent.BaseCandidates | pommerman/agents/simple_team_agent.py:227-240 | the candidates hold Stop only alone, and otherwise exactly the preferred moves: valid, outside every blast line, and unvisited unless every valid safe direction is visited; Stop exactly when no move is preferred |
| TeamAgent.RemoveFirst | pommerman/agents/simple_team_agent.py:249-250 | the first occurrence goes, every other element stays, and without repeats the element is gone |
| TeamAgent.RemoveDangerous | pommerman/agents/simple_team_agent.py:248-253 | every dangerous move is removed, every other candidate kept, Stop when nothing is left |
| TeamAgent.RememberPosition | pommerman/agents/simple_team_agent.py:243-245 | the visited list gains the position last and keeps only the latest six |
| TeamAgent.ShapeCandidates | pommerman/agents/simple_team_agent.py:227-253 | the final candidates hold Stop only alone, and otherwise exactly the preferred moves not among the dangerous ones; Stop exactly when there is none; the visited list gains the position |

## Left out

- The forward model and the engine's Bomber, Bomb and Flame classes
  (`simulator.py:44-74`) are not part of this model. Simulated next
  observations come in through `Mcts.Forward`, and `Simulator.OwnObservation`
  takes the four simulated observations as an argument.
- Randomness: `random.shuffle` in the joint-action generator is an order
  argument that must permute 0..6^k-1. `random.choice` of the final move is
  left out; `TeamAgent.ShapeCandidates` returns the list it draws from.
  The map order of `unsafe_directions` is an order argument too.
- Floating point: scores are Dafny reals. The evade penalty `25*(11-life)/10`
  is exact in reals and Python's float rounding is not modelled.
- `attackCondition` (`reward.py:64-71`) refers to an undefined name.
  `Reward.DecideMode` takes its verdict as a boolean argument.
- The path search `_djikstra` and the item lists are not part of this model.
  Its outputs are arguments, and `TeamAgent.DistCovers` assumes its
  guarantee that every listed position has a distance.
- The engine's utility predicates (passable, fog, on-board with the agent's
  own cell) are the `TeamAgent.Terrain` argument. The stuck test
  `is_stuck_direction` (`simple_team_agent.py:368-403`) is an uninterpreted
  predicate of that argument; the source runs it on a copy of the board
  whose own cell holds a bomb (`simple_team_agent.py:412-413`).
- `_filter_invalid_directions` is modelled only as `TeamAgent.Valid` on a
  passability argument.
- The flame-based dangerous-move list of `act` is an argument of
  `TeamAgent.ShapeCandidates`. The rest of `act` (its earlier decision
  branches) and the other agents and files of the repository are not part of
  this model.
- Mcts.Evaluate: the source reaches a parent only through a child's
  `parent` link (`mcts.py:60-61`), so every parent it averages has
  children. A node with no children is never visited there and keeps its
  initial `aggregating_reward` (`mcts.py:89`). The model leaves such a node
  unchanged, which gives the same values.
- Mcts.Grow: `_buildTree` aliases `queue` and `temp`, so as written it
  would never end. Growing is modelled as the intended breadth-first
  expansion of every node to the tree's level.
- Mcts: `for _ in num_of_children` iterates over an int and `isRoot` reads
  an undefined name. The backpropagation is modelled as intended: one pass
  over each parent's children, with the root marked by a field.
- Mcts.NewNode: the counter is an int and may go negative when more
  observations are drawn than budgeted. `Balanced` tracks drawn plus
  still-to-draw instead of a bound.
- Mcts: the parent link and the per-node mode are not stored. A child's
  reward is `Forward.score` of the child's own observation under the mode
  the parent's observation decides (`mcts.py:119`), and `visits` stays at 1
  because the source never updates it.
- Mcts.Forward: the score is a total function, so it is assumed defined
  in every mode. The source's `Reward().reward` (`mcts.py:119`) returns
  `None` when the parent's mode is Explore (`reward.py:40-45`). That `None`
  would become the child's reward (`mcts.py:121`) and a leaf's aggregating
  reward (`mcts.py:54`), and the sums at `mcts.py:40` and `mcts.py:69` would
  raise TypeError. `Mcts.Search` and `Mcts.EvaluateWithin` rely on this
  assumption.
- Mcts.ExpandAllExhaustsSimulatorBudget: that each own action draws
  6^(n-1) observations is a precondition. The forward model is an
  argument, so it is not derived from `Simulator.JointActions`.
- Mcts.BestAction: `Average` and `BestAction` return `None` when an action
  has no children, where `mcts.py:40` raises ZeroDivisionError.
- Reward.Score: the source's `reward()` compares the mode with the
  integers 0 and 1 (`reward.py:42-44`), while `decideMode` returns
  `constants.Mode` members (`reward.py:30-38`). `constants.Mode` is not
  part of this model, which assumes `Mode.Evade == 0` and
  `Mode.Attack == 1` (int constants or an IntEnum). With a plain `Enum`
  both comparisons would fail and `reward()` would return `None` in every
  mode. Under the assumption, `reward()` falls through to `None` in
  Explore, and the model returns `None` there.
- Simulator.ActionCombinations: when the agent cannot identify itself,
  `_myself_idx` is `None` and `None - 10` raises TypeError
  (`simulator.py:31`); the model returns `None` there.
- Simulator.OwnObservation: when the agent cannot identify itself the loop
  never binds `own_obs`, and reading it raises UnboundLocalError
  (`simulator.py:116`); the model returns `None` there.
- TeamAgent.NearestPosition: `max(dist.values())` raises on an empty map;
  the model returns `Failure` there.
- TeamAgent.MaybeBomb: `items.get(Passage)` is `None` when the search
  listed no passage, and iterating it raises; the model returns `Failure`
  there.

## Findings

| source | as written | input that shows it | evidently intended | confidence | as-written member | corrected member |
|---|---|---|---|---|---|---|
| pommerman/helpers/reward.py:108-113 | the downward ray also stops at a cell an earlier bomb already flamed, unlike the other three rays, which stop only at blocked cells | an empty board with bombs of strength 5 at (0, 0) and (0, 3): the first bomb flames (0, 3), so the second bomb's downward ray stops at once and (1, 3) stays counted as empty and safe | every ray stops only at a blocked cell, so (1, 3) is flamed | medium, not executed | Reward.DownRayStopsAtFlamedBombCell | Reward.BlastMarksExactly |

The attack score follows the code and counts over the marking as written
(`Reward.SourceMarks`). The corrected marking (`Reward.BlastMarks`) is proved
to flame exactly the cells some bomb reaches (`Reward.BlastMarksExactly`,
`Reward.MarkAllFlames`). `Reward.SourceMarksWithinCorrected` and
`Reward.CorrectedAttackScore` bound the score as written by the corrected
one.

=== FILE: game.dfy ===
/** Shared vocabulary of the Pommerman game as the decision core sees it:
    board coordinates, the six actions, Manhattan distance, the fixed
    11x11 board and the flattened bomb list read off the blast-strength map. */
module Game {

  datatype Option<+T> = None | Some(value: T)

  /** A board cell, row first. */
  datatype Pos = Pos(r: int, c: int)

  /** The six actions, in the engine's numbering 0..5. */
  datatype Action = Stop | Up | Down | Left | Right | Bomb
  {
    function Value(): (v: int)
      ensures 0 <= v < 6
    {
      match this
      case Stop => 0
      case Up => 1
      case Down => 2
      case Left => 3
      case Right => 4
      case Bomb => 5
    }

    predicate IsMove() {
      this == Up || this == Down || this == Left || this == Right
    }
  }

  /** The action list the search iterates over, in the source's order. */
  const Actions: seq<Action> := [Stop, Up, Down, Left, Right, Bomb]

  lemma ActionValuesDistinct(a: Action, b: Action)
    ensures a.Value() == b.Value() <==> a == b
  {
  }

  /** Board item codes (the engine's Item enumeration). */
  const Passage: int := 0
  const Rigid: int := 1
  const Wood: int := 2
  const FirstAgentId: int := 10
  const LastAgentId: int := 13

  /** The board is always 11 by 11. */
  const Size: int := 11

  function Abs(x: int): nat {
    if x < 0 then -x else x
  }

  /** Manhattan distance between two cells. */
  function Distance(p: Pos, q: Pos): (d: nat)
    ensures d == 0 <==> p == q
  {
    Abs(p.r - q.r) + Abs(p.c - q.c)
  }

  lemma DistanceSymmetric(p: Pos, q: Pos)
    ensures Distance(p, q) == Distance(q, p)
  {
  }

  lemma DistanceTriangle(p: Pos, q: Pos, s: Pos)
    ensures Distance(p, s) <= Distance(p, q) + Distance(q, s)
  {
  }

  predicate OnBoard(p: Pos) {
    0 <= p.r < Size && 0 <= p.c < Size
  }

  type Grid = seq<seq<int>>

  /** An 11x11 integer grid: the board, bomb lives and blast strengths. */
  predicate IsBoard<T>(g: seq<seq<T>>) {
    |g| == Size && forall i | 0 <= i < Size :: |g[i]| == Size
  }

  function At(g: Grid, p: Pos): int
    requires IsBoard(g) && OnBoard(p)
  {
    g[p.r][p.c]
  }

  /** The cell one step from p in direction d; Stop stays put. The engine
      raises for Bomb, which no caller passes. */
  function NextPosition(p: Pos, d: Action): (q: Pos)
    requires d != Bomb
    ensures d == Stop <==> q == p
    ensures Distance(p, q) == (if d == Stop then 0 else 1)
  {
    match d
    case Stop => p
    case Up => Pos(p.r - 1, p.c)
    case Down => Pos(p.r + 1, p.c)
    case Left => Pos(p.r, p.c - 1)
    case Right => Pos(p.r, p.c + 1)
  }

  /** One entry of the flattened bomb list. */
  datatype BombInfo = BombInfo(pos: Pos, strength: int)

  /** Row-major index of a cell on the board. */
  function CellIndex(p: Pos): int {
    p.r * Size + p.c
  }

  function CellAt(k: int): (p: Pos)
    requires 0 <= k < Size * Size
    ensures OnBoard(p) && CellIndex(p) == k
  {
    Pos(k / Size, k % Size)
  }

  /** Every cell of the board has exactly one row-major index. */
  lemma CellIndexInjective(p: Pos, q: Pos)
    requires OnBoard(p) && OnBoard(q) && CellIndex(p) == CellIndex(q)
    ensures p == q
  {
  }

  /** The bombs at row-major indices k.. : every cell with positive blast strength. */
  function BombsFrom(s: Grid, k: nat): (bs: seq<BombInfo>)
    requires IsBoard(s)
    requires k <= Size * Size
    ensures forall i | 0 <= i < |bs| ::
      OnBoard(bs[i].pos) && k <= CellIndex(bs[i].pos)
      && bs[i].strength == At(s, bs[i].pos) && bs[i].strength > 0
    ensures forall i, j | 0 <= i < j < |bs| :: CellIndex(bs[i].pos) < CellIndex(bs[j].pos)
    decreases Size * Size - k
  {
    if k == Size * Size then []
    else
      var p := CellAt(k);
      var rest := BombsFrom(s, k + 1);
      if At(s, p) > 0 then [BombInfo(p, At(s, p))] + rest else rest
  }

  /** The flattened bomb list: one entry per cell with positive blast
      strength, in row-major order. */
  function ConvertBombs(s: Grid): (bs: seq<BombInfo>)
    requires IsBoard(s)
    ensures forall b | b in bs :: OnBoard(b.pos) && b.strength == At(s, b.pos) && b.strength > 0
  {
    BombsFrom(s, 0)
  }

  lemma {:induction false} BombsFromComplete(s: Grid, k: nat, p: Pos)
    requires IsBoard(s) && k <= Size * Size
    requires OnBoard(p) && k <= CellIndex(p) && At(s, p) > 0
    ensures BombInfo(p, At(s, p)) in BombsFrom(s, k)
    decreases Size * Size - k
  {
    if CellIndex(p) == k {
      CellIndexInjective(CellAt(k), p);
    } else {
      BombsFromComplete(s, k + 1, p);
    }
  }

  /** Every cell with positive blast strength appears in the bomb list, and
      it lists no cell twice. */
  lemma ConvertBombsComplete(s: Grid, p: Pos)
    requires IsBoard(s) && OnBoard(p)
    ensures BombInfo(p, At(s, p)) in ConvertBombs(s) <==> At(s, p) > 0
    ensures forall i, j | 0 <= i < j < |ConvertBombs(s)| :: ConvertBombs(s)[i].pos != ConvertBombs(s)[j].pos
  {
    if At(s, p) > 0 {
      BombsFromComplete(s, 0, p);
    }
  }

  /** What one agent observes in one tick: the board, the per-cell bomb
      blast strengths and remaining lives, its own position and stats, and
      the identities it knows about (agents are 10..13 on the board). */
  datatype Observation = Observation(
    board: Grid,
    bombBlastStrength: Grid,
    bombLife: Grid,
    position: Pos,
    ammo: int,
    blastStrength: int,
    canKick: bool,
    alive: seq<int>,
    enemies: seq<int>,
    teammate: int)
  {
    /** The engine always hands out 11x11 grids and an on-board position. */
    predicate Valid() {
      IsBoard(board) && IsBoard(bombBlastStrength) && IsBoard(bombLife) && OnBoard(position)
    }
  }

  /** The outcome of an operation the source can abort with an exception. */
  datatype Result<+T> = Failure | Success(value: T)

  /* ---------------------------------------------------------------------
     Lists
     --------------------------------------------------------------------- */

  /** a's elements occur in b in the same order. */
  predicate IsSubsequence<T(==)>(a: seq<T>, b: seq<T>)
    decreases |b|
  {
    if a == [] then true
    else if b == [] then false
    else if a[0] == b[0] then IsSubsequence(a[1..], b[1..])
    else IsSubsequence(a, b[1..])
  }

  lemma {:induction false} SubsequenceReflexive<T>(a: seq<T>)
    ensures IsSubsequence(a, a)
    decreases |a|
  {
    if a != [] {
      SubsequenceReflexive(a[1..]);
    }
  }

  predicate NoDuplicates<T(==)>(xs: seq<T>) {
    forall i, j | 0 <= i < j < |xs| :: xs[i] != xs[j]
  }

  /** The elements of xs that keep accepts, in order: a list comprehension
      with a condition. */
  function Filter<T>(xs: seq<T>, keep: T -> bool): (ys: seq<T>)
    ensures |ys| <= |xs|
    ensures forall i | 0 <= i < |ys| :: ys[i] in xs && keep(ys[i])
    ensures forall i | 0 <= i < |xs| && keep(xs[i]) :: xs[i] in ys
  {
    if xs == [] then [] else (if keep(xs[0]) then [xs[0]] else []) + Filter(xs[1..], keep)
  }

  /** Filtering a list built one element at a time, as the source's loops do. */
  lemma {:induction false} FilterAppend<T>(xs: seq<T>, x: T, keep: T -> bool)
    ensures Filter(xs + [x], keep) == Filter(xs, keep) + (if keep(x) then [x] else [])
    decreases |xs|
  {
    if xs != [] {
      assert (xs + [x])[1..] == xs[1..] + [x];
      FilterAppend(xs[1..], x, keep);
    }
  }

  lemma {:induction false} FilterSubsequence<T>(xs: seq<T>, keep: T -> bool)
    ensures IsSubsequence(Filter(xs, keep), xs)
    decreases |xs|
  {
    if xs != [] {
      FilterSubsequence(xs[1..], keep);
      var rest := Filter(xs[1..], keep);
      if keep(xs[0]) {
        assert Filter(xs, keep) == [xs[0]] + rest;
        assert ([xs[0]] + rest)[1..] == rest;
      } else {
        assert Filter(xs, keep) == rest;
        if rest != [] {
          assert keep(rest[0]);
          assert rest[0] != xs[0];
        }
      }
    }
  }

  lemma {:induction false} FilterNoDuplicates<T>(xs: seq<T>, keep: T -> bool)
    requires NoDuplicates(xs)
    ensures NoDuplicates(Filter(xs, keep))
    decreases |xs|
  {
    if xs != [] {
      FilterNoDuplicates(xs[1..], keep);
      var rest := Filter(xs[1..], keep);
      assert xs[0] !in xs[1..];
      if keep(xs[0]) {
        var ys := [xs[0]] + rest;
        forall i, j | 0 <= i < j < |ys| ensures ys[i] != ys[j] {
          if i == 0 {
            assert ys[j] in rest;
          } else {
            assert ys[i] == rest[i - 1] && ys[j] == rest[j - 1];
          }
        }
      }
    }
  }
}

=== FILE: mcts.dfy ===
/** The Monte-Carlo search tree's statistics, as a functional tree.
    Each node keeps how many next observations it may still draw (counter)
    and how many it has drawn (numChildren); expanding a node under an
    action draws the forward model's next observations for that action and
    appends one fresh child per observation. After the tree is grown to the
    search depth, each leaf's aggregating reward is its own reward and each
    parent's is the mean of its children's; the best action is the first of
    the six whose children's average is largest.

    The observation type is a parameter: the forward model (which next
    observations an action leads to), the reward of a child under its
    parent's mode and the number of next observations of an observation
    are supplied as a Forward value. */
module Mcts {
  import opened Game
  import Simulator

  /** A maximum reward: minus infinity until a backpropagation sets it. */
  datatype Extended = NegInf | Finite(value: real)

  /** A search node. children[k] holds the children drawn under the action
      whose value is k, in drawing order. */
  datatype Node<O> = Node(
    obs: O,
    reward: real,
    visits: nat,
    maxReward: Extended,
    aggregating: real,
    numChildren: int,
    numNextObs: nat,
    counter: int,
    isRoot: bool,
    children: seq<seq<Node<O>>>)

  /** The forward model and scorer a tree is grown with: next(o, a) are the
      observations drawn when the agent plays a from o, score(o, o') is the
      reward of o' under the mode o decides, count(o) is o's number of next
      observations. */
  datatype Forward<!O> = Forward(next: (O, Action) -> seq<O>, score: (O, O) -> real, count: O -> nat)

  /** The children drawn under one action; none when that action was never
      expanded (the source's children map defaults to an empty list). */
  function Kids<O>(n: Node<O>, a: Action): seq<Node<O>> {
    if a.Value() < |n.children| then n.children[a.Value()] else []
  }

  /** Every draw so far is accounted for: drawn plus still-to-draw is the
      node's number of next observations. */
  predicate Balanced<O>(n: Node<O>) {
    n.counter + n.numChildren == n.numNextObs
  }

  predicate FullyExpanded<O>(n: Node<O>) {
    n.counter == 0
  }

  /** Everything but the counters and the children is the same. */
  ghost predicate SameData<O>(m: Node<O>, n: Node<O>) {
    && m.obs == n.obs && m.reward == n.reward && m.visits == n.visits
    && m.maxReward == n.maxReward && m.aggregating == n.aggregating
    && m.numNextObs == n.numNextObs && m.isRoot == n.isRoot
  }

  /* ---------------------------------------------------------------------
     Fresh nodes and expansion
     --------------------------------------------------------------------- */

  /** A node as constructed: nothing drawn yet, the whole budget of next
      observations still to draw, no statistics yet. */
  function NewNode<O>(obs: O, reward: real, numNextObs: nat, isRoot: bool): (n: Node<O>)
    ensures Balanced(n) && n.numChildren == 0
    ensures forall a :: |Kids(n, a)| == 0
    ensures FullyExpanded(n) <==> numNextObs == 0
    ensures n.visits == 1 && n.maxReward == NegInf && n.aggregating == 0.0
    ensures n.obs == obs && n.reward == reward && n.isRoot == isRoot
  {
    Node(obs, reward, 1, NegInf, 0.0, 0, numNextObs, numNextObs, isRoot, [])
  }

  /** The child built for one drawn observation. */
  function Child<O>(f: Forward<O>, parent: O, o: O): Node<O> {
    NewNode(o, f.score(parent, o), f.count(o), false)
  }

  /** The children built for a list of drawn observations, in order. */
  function Fresh<O>(f: Forward<O>, parent: O, obs: seq<O>): (kids: seq<Node<O>>)
    ensures |kids| == |obs|
  {
    seq(|obs|, i requires 0 <= i < |obs| => Child(f, parent, obs[i]))
  }

  /** A children table with a slot for each of the six actions. */
  function Padded<O>(cs: seq<seq<Node<O>>>): (ps: seq<seq<Node<O>>>)
    ensures |ps| == if |cs| < 6 then 6 else |cs|
    ensures forall i | 0 <= i < |ps| :: ps[i] == if i < |cs| then cs[i] else []
  {
    if |cs| < 6 then cs + seq(6 - |cs|, _ => []) else cs
  }

  /** The node with the children under a replaced by kids. */
  function SetKids<O>(n: Node<O>, a: Action, kids: seq<Node<O>>): (m: Node<O>)
    ensures SameData(m, n) && m.counter == n.counter && m.numChildren == n.numChildren
    ensures Kids(m, a) == kids
    ensures forall b | b != a :: Kids(m, b) == Kids(n, b)
  {
    var m := n.(children := Padded(n.children)[a.Value() := kids]);
    assert forall b | b != a :: Kids(m, b) == Kids(n, b) by {
      forall b | b != a ensures Kids(m, b) == Kids(n, b) {
        ActionValuesDistinct(a, b);
      }
    }
    m
  }

  /** One pass of the expansion loop: one drawn observation becomes one
      more child under a. */
  function AddChild<O>(f: Forward<O>, n: Node<O>, a: Action, o: O): (m: Node<O>)
    ensures SameData(m, n)
    ensures m.counter == n.counter - 1 && m.numChildren == n.numChildren + 1
    ensures Kids(m, a) == Kids(n, a) + [Child(f, n.obs, o)]
    ensures forall b | b != a :: Kids(m, b) == Kids(n, b)
  {
    SetKids(n, a, Kids(n, a) + [Child(f, n.obs, o)]).(counter := n.counter - 1, numChildren := n.numChildren + 1)
  }

  /** Expanding under a with the drawn observations obs: the counter drops
      by one and the child count grows by one per observation, and exactly
      the fresh children are appended under a, in drawing order. */
  function ExpandWith<O>(f: Forward<O>, n: Node<O>, a: Action, obs: seq<O>): (m: Node<O>)
    ensures SameData(m, n)
    ensures m.counter == n.counter - |obs| && m.numChildren == n.numChildren + |obs|
    ensures Balanced(n) ==> Balanced(m)
    ensures Kids(m, a) == Kids(n, a) + Fresh(f, n.obs, obs)
    ensures forall b | b != a :: Kids(m, b) == Kids(n, b)
    decreases |obs|
  {
    if obs == [] then n
    else
      var n' := AddChild(f, n, a, obs[0]);
      var m := ExpandWith(f, n', a, obs[1..]);
      assert Fresh(f, n.obs, obs) == [Child(f, n.obs, obs[0])] + Fresh(f, n.obs, obs[1..]);
      m
  }

  /** Expanding a node under one action: the forward model's next
      observations for that action. */
  function Expand<O>(f: Forward<O>, n: Node<O>, a: Action): (m: Node<O>)
    ensures SameData(m, n)
    ensures m.counter == n.counter - |f.next(n.obs, a)|
    ensures Balanced(n) ==> Balanced(m)
    ensures Kids(m, a) == Kids(n, a) + Fresh(f, n.obs, f.next(n.obs, a))
    ensures forall b | b != a :: Kids(m, b) == Kids(n, b)
  {
    ExpandWith(f, n, a, f.next(n.obs, a))
  }

  /** The number of observations drawn for the first k of the six actions. */
  function Drawn<O>(f: Forward<O>, o: O, k: nat): nat
    requires k <= |Actions|
  {
    if k == 0 then 0 else Drawn(f, o, k - 1) + |f.next(o, Actions[k - 1])|
  }

  /** Expanding under the first k of the six actions, in order. */
  function ExpandUpTo<O>(f: Forward<O>, n: Node<O>, k: nat): (m: Node<O>)
    requires k <= |Actions|
    ensures SameData(m, n)
    ensures m.counter == n.counter - Drawn(f, n.obs, k)
    ensures Balanced(n) ==> Balanced(m)
    ensures forall a :: Kids(m, a) == Kids(n, a) + (if a.Value() < k then Fresh(f, n.obs, f.next(n.obs, a)) else [])
  {
    if k == 0 then n
    else
      var m' := ExpandUpTo(f, n, k - 1);
      ExpandNext(f, n, m', k);
      Expand(f, m', Actions[k - 1])
  }

  /** Expanding under the k-th action adds its fresh children and leaves
      the other actions' children alone. */
  lemma ExpandNext<O>(f: Forward<O>, n: Node<O>, m': Node<O>, k: nat)
    requires 1 <= k <= |Actions| && m'.obs == n.obs
    requires forall a :: Kids(m', a) == Kids(n, a) + (if a.Value() < k - 1 then Fresh(f, n.obs, f.next(n.obs, a)) else [])
    ensures forall a ::
              Kids(Expand(f, m', Actions[k - 1]), a) == Kids(n, a) + (if a.Value() < k then Fresh(f, n.obs, f.next(n.obs, a)) else [])
  {
    var m := Expand(f, m', Actions[k - 1]);
    forall a
      ensures Kids(m, a) == Kids(n, a) + (if a.Value() < k then Fresh(f, n.obs, f.next(n.obs, a)) else [])
    {
      ActionValuesDistinct(a, Actions[k - 1]);
      if a.Value() < k - 1 || a.Value() >= k {
        assert a != Actions[k - 1];
        assert Kids(m, a) == Kids(m', a);
      } else {
        assert a == Actions[k - 1];
        assert Kids(m', a) == Kids(n, a);
      }
    }
  }

  /** Expanding under all six actions, in the order Stop, Up, Down, Left,
      Right, Bomb. */
  function ExpandAll<O>(f: Forward<O>, n: Node<O>): (m: Node<O>)
    ensures SameData(m, n)
    ensures m.counter == n.counter - Drawn(f, n.obs, |Actions|)
    ensures Balanced(n) ==> Balanced(m)
    ensures forall a :: Kids(m, a) == Kids(n, a) + Fresh(f, n.obs, f.next(n.obs, a))
  {
    ExpandUpTo(f, n, |Actions|)
  }

  /** The children expandAll reports, action by action. */
  function AllChildren<O>(n: Node<O>): seq<Node<O>> {
    Kids(n, Stop) + Kids(n, Up) + Kids(n, Down) + Kids(n, Left) + Kids(n, Right) + Kids(n, Bomb)
  }

  /** When every action draws the same number m of observations and the
      node's budget is six times that, one full expansion of a fresh node
      exhausts the budget exactly. */
  lemma ExpandAllExhausts<O>(f: Forward<O>, n: Node<O>, m: nat)
    requires n.counter == n.numNextObs && n.numNextObs == 6 * m
    requires forall a :: |f.next(n.obs, a)| == m
    ensures FullyExpanded(ExpandAll(f, n))
    ensures |AllChildren(ExpandAll(f, n))| == 6 * m + |AllChildren(n)|
  {
    var o := n.obs;
    assert Drawn(f, o, 1) == m;
    assert Drawn(f, o, 2) == 2 * m;
    assert Drawn(f, o, 3) == 3 * m;
    assert Drawn(f, o, 4) == 4 * m;
    assert Drawn(f, o, 5) == 5 * m;
    assert Drawn(f, o, 6) == 6 * m;
  }

  /** The simulator's counts fit together: a node whose budget is 6^n for n
      observed-alive agents, the agent itself among them, draws 6^(n-1)
      joint actions per own action and is fully expanded after one
      expandAll. */
  lemma ExpandAllExhaustsSimulatorBudget<O>(f: Forward<O>, n: Node<O>, me: int, alive: seq<int>)
    requires FirstAgentId <= me <= LastAgentId && Simulator.WellFormedAlive(alive) && me in alive
    requires n.counter == n.numNextObs && n.numNextObs == Simulator.Pow6(|alive|)
    requires forall a :: |f.next(n.obs, a)| == Simulator.Pow6(|Simulator.OtherSlots(alive, Some(me))|)
    ensures FullyExpanded(ExpandAll(f, n))
  {
    Simulator.DrawsMatchNumOfNextObs(me, alive);
    ExpandAllExhausts(f, n, Simulator.Pow6(|Simulator.OtherSlots(alive, Some(me))|));
  }

  /** The tree grown breadth-first to the given depth: the node expanded,
      then each child grown one level less. */
  function Grow<O>(f: Forward<O>, n: Node<O>, depth: nat): (m: Node<O>)
    ensures SameData(m, n)
    ensures depth == 0 ==> m == n
    ensures depth > 0 ==> m.counter == n.counter - Drawn(f, n.obs, |Actions|)
    ensures depth > 0 ==> forall a :: |Kids(m, a)| == |Kids(n, a)| + |f.next(n.obs, a)|
    ensures depth > 0 ==> forall a :: Kids(m, a) == GrowList(f, Kids(ExpandAll(f, n), a), depth - 1)
    ensures Balanced(n) ==> Balanced(m)
    decreases depth, 0, 0
  {
    if depth == 0 then n else GrowBelow(f, ExpandAll(f, n), depth - 1)
  }

  /** An expanded node whose children are each grown the given number of
      levels. */
  function GrowBelow<O>(f: Forward<O>, e: Node<O>, depth: nat): (m: Node<O>)
    ensures SameData(m, e) && m.counter == e.counter && m.numChildren == e.numChildren
    ensures forall a :: Kids(m, a) == GrowList(f, Kids(e, a), depth)
    decreases depth, 5, 0
  {
    var m := e.(children := GrowAll(f, e.children, depth));
    SameShapeKids(m, e);
    GrowBelowKids(f, e, depth);
    m
  }

  /** The children under every action of such a node are its children
      under that action, each grown. */
  lemma GrowBelowKids<O>(f: Forward<O>, e: Node<O>, depth: nat)
    ensures forall a :: Kids(e.(children := GrowAll(f, e.children, depth)), a) == GrowList(f, Kids(e, a), depth)
    decreases depth, 4, 0
  {
    forall a ensures Kids(e.(children := GrowAll(f, e.children, depth)), a) == GrowList(f, Kids(e, a), depth) {
      if a.Value() < |e.children| {
        GrowAllAt(f, e.children, depth, a.Value());
      }
    }
  }

  /** Every child grown the given number of levels. */
  function GrowAll<O>(f: Forward<O>, cs: seq<seq<Node<O>>>, depth: nat): (gs: seq<seq<Node<O>>>)
    ensures SameShape(gs, cs)
    decreases depth, 2, |cs|
  {
    if cs == [] then []
    else [GrowList(f, cs[0], depth)] + GrowAll(f, cs[1..], depth)
  }

  /** The children under one action, each grown the given number of levels. */
  function GrowList<O>(f: Forward<O>, ks: seq<Node<O>>, depth: nat): (gs: seq<Node<O>>)
    ensures |gs| == |ks|
    decreases depth, 1, |ks|
  {
    if ks == [] then [] else [Grow(f, ks[0], depth)] + GrowList(f, ks[1..], depth)
  }

  /** The i-th list of a grown table is the i-th list grown. */
  lemma {:induction false} GrowAllAt<O>(f: Forward<O>, cs: seq<seq<Node<O>>>, depth: nat, i: int)
    requires 0 <= i < |cs|
    ensures GrowAll(f, cs, depth)[i] == GrowList(f, cs[i], depth)
    decreases depth, 3, i
  {
    if i > 0 {
      GrowAllAt(f, cs[1..], depth, i - 1);
    }
  }

  /** The j-th child of a grown list is the j-th child grown. */
  lemma {:induction false} GrowListAt<O>(f: Forward<O>, ks: seq<Node<O>>, depth: nat, j: int)
    requires 0 <= j < |ks|
    ensures GrowList(f, ks, depth)[j] == Grow(f, ks[j], depth)
    decreases j
  {
    if j > 0 {
      GrowListAt(f, ks[1..], depth, j - 1);
    }
  }

  /** Two children tables with the same number of children under each action. */
  predicate SameShape<O>(gs: seq<seq<Node<O>>>, cs: seq<seq<Node<O>>>) {
    |gs| == |cs| && forall i | 0 <= i < |cs| :: |gs[i]| == |cs[i]|
  }

  lemma SameShapeKids<O>(m: Node<O>, n: Node<O>)
    requires SameShape(m.children, n.children)
    ensures forall a :: |Kids(m, a)| == |Kids(n, a)|
  {
  }

  /* ---------------------------------------------------------------------
     Leaf initialisation and backpropagation
     --------------------------------------------------------------------- */

  function Sum(xs: seq<real>): real {
    if xs == [] then 0.0 else xs[0] + Sum(xs[1..])
  }

  function Mean(xs: seq<real>): real
    requires xs != []
  {
    Sum(xs) / (|xs| as real)
  }

  function Max(xs: seq<real>): (m: real)
    requires xs != []
    ensures m in xs && forall i | 0 <= i < |xs| :: xs[i] <= m
  {
    if |xs| == 1 then xs[0]
    else
      var r := Max(xs[1..]);
      if xs[0] >= r then xs[0] else r
  }

  predicate Within(xs: seq<real>, lo: real, hi: real) {
    forall i | 0 <= i < |xs| :: lo <= xs[i] <= hi
  }

  lemma {:induction false} SumWithin(xs: seq<real>, lo: real, hi: real)
    requires Within(xs, lo, hi)
    ensures (|xs| as real) * lo <= Sum(xs) <= (|xs| as real) * hi
  {
    if xs != [] {
      var k := |xs[1..]| as real;
      assert Within(xs[1..], lo, hi) by {
        forall i | 0 <= i < |xs[1..]| ensures lo <= xs[1..][i] <= hi { assert xs[1..][i] == xs[i + 1]; }
      }
      SumWithin(xs[1..], lo, hi);
      var rest := Sum(xs[1..]);
      assert k * lo <= rest <= k * hi;
      assert lo <= xs[0] <= hi;
      assert Sum(xs) == xs[0] + rest;
      assert (k + 1.0) * lo == k * lo + lo && (k + 1.0) * hi == k * hi + hi;
      assert |xs| as real == k + 1.0;
    }
  }

  /** A mean lies between the smallest and the largest value. */
  lemma MeanWithin(xs: seq<real>, lo: real, hi: real)
    requires xs != [] && Within(xs, lo, hi)
    ensures lo <= Mean(xs) <= hi
  {
    SumWithin(xs, lo, hi);
    var n := |xs| as real;
    assert Mean(xs) * n == Sum(xs);
  }

  function Min(xs: seq<real>): (m: real)
    requires xs != []
    ensures m in xs && forall i | 0 <= i < |xs| :: m <= xs[i]
  {
    if |xs| == 1 then xs[0]
    else
      var r := Min(xs[1..]);
      if xs[0] <= r then xs[0] else r
  }

  /** A backpropagated mean lies between the smallest child value and the
      maximum that backpropagation records beside it. */
  lemma MeanBetweenMinMax(xs: seq<real>)
    requires xs != []
    ensures Min(xs) <= Mean(xs) <= Max(xs)
  {
    MeanWithin(xs, Min(xs), Max(xs));
  }

  /** The aggregating rewards of a list of nodes, in order. */
  function Aggregates<O>(ns: seq<Node<O>>): (xs: seq<real>)
    ensures |xs| == |ns| && forall i | 0 <= i < |ns| :: xs[i] == ns[i].aggregating
  {
    seq(|ns|, i requires 0 <= i < |ns| => ns[i].aggregating)
  }

  /** The aggregating rewards of all children, action by action. */
  function ChildValues<O>(cs: seq<seq<Node<O>>>): seq<real> {
    if cs == [] then [] else Aggregates(cs[0]) + ChildValues(cs[1..])
  }

  lemma {:induction false} ChildValuesWithin<O>(cs: seq<seq<Node<O>>>, lo: real, hi: real)
    requires forall i, j | 0 <= i < |cs| && 0 <= j < |cs[i]| :: lo <= cs[i][j].aggregating <= hi
    ensures Within(ChildValues(cs), lo, hi)
  {
    if cs != [] {
      ChildValuesWithin(cs[1..], lo, hi);
      var head := Aggregates(cs[0]);
      var rest := ChildValues(cs[1..]);
      assert forall k | 0 <= k < |head| + |rest| ::
        (head + rest)[k] == if k < |head| then head[k] else rest[k - |head|];
    }
  }

  /** Leaf initialisation and backpropagation over a grown tree of the
      given depth: a leaf's aggregating reward becomes its own reward; a
      parent's becomes the mean of its children's and its maximum reward
      their maximum. A parent with no children is left as it was. */
  function Evaluate<O>(n: Node<O>, depth: nat): (m: Node<O>)
    ensures m.obs == n.obs && m.reward == n.reward && m.counter == n.counter
    ensures m.numChildren == n.numChildren && m.numNextObs == n.numNextObs && m.isRoot == n.isRoot
    ensures forall a :: |Kids(m, a)| == |Kids(n, a)|
    decreases depth, 0
  {
    if depth == 0 then n.(aggregating := n.reward)
    else
      var cs := EvaluateAll(n.children, depth - 1);
      var vals := ChildValues(cs);
      var m := if vals == [] then n.(children := cs)
        else n.(children := cs, aggregating := Mean(vals), maxReward := Finite(Max(vals)));
      SameShapeKids(m, n);
      m
  }

  /** Every child evaluated to the given depth. */
  function EvaluateAll<O>(cs: seq<seq<Node<O>>>, depth: nat): (es: seq<seq<Node<O>>>)
    ensures SameShape(es, cs)
    decreases depth, 1
  {
    seq(|cs|, i requires 0 <= i < |cs| =>
      seq(|cs[i]|, j requires 0 <= j < |cs[i]| => Evaluate(cs[i][j], depth)))
  }

  /** Every reward a backpropagation reads lies in [lo, hi]: the leaves'
      own rewards and the aggregating rewards of childless parents. */
  predicate RewardsWithin<O>(n: Node<O>, depth: nat, lo: real, hi: real)
    decreases depth
  {
    if depth == 0 then lo <= n.reward <= hi
    else
      && lo <= n.aggregating <= hi
      && forall i, j | 0 <= i < |n.children| && 0 <= j < |n.children[i]| ::
           RewardsWithin(n.children[i][j], depth - 1, lo, hi)
  }

  /** Every child's aggregating reward is among the values a parent reads. */
  lemma {:induction false} ChildValuesHas<O>(cs: seq<seq<Node<O>>>, i: int, j: int)
    requires 0 <= i < |cs| && 0 <= j < |cs[i]|
    ensures cs[i][j].aggregating in ChildValues(cs)
    decreases i
  {
    if i == 0 {
      assert Aggregates(cs[0])[j] == cs[0][j].aggregating;
      assert ChildValues(cs) == Aggregates(cs[0]) + ChildValues(cs[1..]);
    } else {
      ChildValuesHas(cs[1..], i - 1, j);
      assert ChildValues(cs) == Aggregates(cs[0]) + ChildValues(cs[1..]);
    }
  }

  /** Every value a parent reads is some child's aggregating reward. */
  lemma {:induction false} ChildValuesFrom<O>(cs: seq<seq<Node<O>>>, x: real) returns (i: int, j: int)
    requires x in ChildValues(cs)
    ensures 0 <= i < |cs| && 0 <= j < |cs[i]| && cs[i][j].aggregating == x
    decreases |cs|
  {
    if cs == [] {
      assert false;
    }
    var head := Aggregates(cs[0]);
    assert ChildValues(cs) == head + ChildValues(cs[1..]);
    if x in head {
      var k :| 0 <= k < |head| && head[k] == x;
      i, j := 0, k;
    } else {
      var i', j' := ChildValuesFrom(cs[1..], x);
      i, j := i' + 1, j';
    }
  }

  /** After backpropagation a parent with children holds a finite maximum
      reached by one of its children and no smaller than any child's
      aggregating reward or its own mean. */
  lemma EvaluateParentBounds<O>(n: Node<O>, depth: nat)
    ensures var m := Evaluate(n, depth);
      depth > 0 && ChildValues(m.children) != [] ==>
        && m.maxReward.Finite?
        && m.aggregating <= m.maxReward.value
        && (forall i, j | 0 <= i < |m.children| && 0 <= j < |m.children[i]| ::
              m.children[i][j].aggregating <= m.maxReward.value)
        && (exists i, j | 0 <= i < |m.children| && 0 <= j < |m.children[i]| ::
              m.children[i][j].aggregating == m.maxReward.value)
  {
    var m := Evaluate(n, depth);
    if depth > 0 && ChildValues(m.children) != [] {
      var vals := ChildValues(m.children);
      assert m.maxReward == Finite(Max(vals)) && m.aggregating == Mean(vals);
      MeanBetweenMinMax(vals);
      forall i, j | 0 <= i < |m.children| && 0 <= j < |m.children[i]|
        ensures m.children[i][j].aggregating <= m.maxReward.value
      {
        ChildValuesHas(m.children, i, j);
      }
      var i, j := ChildValuesFrom(m.children, Max(vals));
    }
  }

  /** Backpropagated rewards stay within the range of the rewards they are
      built from, at every level. */
  lemma {:induction false} EvaluateWithin<O>(n: Node<O>, depth: nat, lo: real, hi: real)
    requires RewardsWithin(n, depth, lo, hi)
    ensures lo <= Evaluate(n, depth).aggregating <= hi
    decreases depth, 0
  {
    if depth > 0 {
      var cs := EvaluateAll(n.children, depth - 1);
      EvaluateAllWithin(n.children, depth - 1, lo, hi);
      ChildValuesWithin(cs, lo, hi);
      if ChildValues(cs) != [] {
        MeanWithin(ChildValues(cs), lo, hi);
      }
    }
  }

  lemma {:induction false} EvaluateAllWithin<O>(cs: seq<seq<Node<O>>>, depth: nat, lo: real, hi: real)
    requires forall i, j | 0 <= i < |cs| && 0 <= j < |cs[i]| :: RewardsWithin(cs[i][j], depth, lo, hi)
    ensures forall i, j | 0 <= i < |cs| && 0 <= j < |cs[i]| :: lo <= EvaluateAll<O>(cs, depth)[i][j].aggregating <= hi
    decreases depth, 1
  {
    var es: seq<seq<Node<O>>> := EvaluateAll(cs, depth);
    forall i, j | 0 <= i < |cs| && 0 <= j < |cs[i]| ensures lo <= es[i][j].aggregating <= hi {
      assert es[i][j] == Evaluate(cs[i][j], depth);
      EvaluateWithin(cs[i][j], depth, lo, hi);
    }
  }

  /* ---------------------------------------------------------------------
     The best action
     --------------------------------------------------------------------- */

  /** The average aggregating reward of the children under a; none when
      there are none (the source divides by zero there). */
  function Average<O>(n: Node<O>, a: Action): (r: Option<real>)
    ensures r.None? <==> |Kids(n, a)| == 0
  {
    if |Kids(n, a)| == 0 then None else Some(Mean(Aggregates(Kids(n, a))))
  }

  lemma ActionAt(a: Action)
    ensures 0 <= a.Value() < 6 && Actions[a.Value()] == a
  {
  }

  /** The children under a average at least as much as those under b. */
  predicate NoWorse<O>(n: Node<O>, a: Action, b: Action) {
    Average(n, a).Some? && Average(n, b).Some? && Average(n, b).value <= Average(n, a).value
  }

  /** The children under a average strictly more than those under b. */
  predicate Better<O>(n: Node<O>, a: Action, b: Action) {
    Average(n, a).Some? && Average(n, b).Some? && Average(n, b).value < Average(n, a).value
  }

  /** The index of the first largest value: what max over an insertion-
      ordered dict returns. */
  method FirstMax(xs: seq<real>) returns (best: nat)
    requires xs != []
    ensures best < |xs|
    ensures forall j | 0 <= j < |xs| :: xs[j] <= xs[best]
    ensures forall j | 0 <= j < best :: xs[j] < xs[best]
  {
    best := 0;
    for i := 1 to |xs|
      invariant 0 <= best < i
      invariant forall j | 0 <= j < i :: xs[j] <= xs[best]
      invariant forall j | 0 <= j < best :: xs[j] < xs[best]
    {
      if xs[i] > xs[best] {
        best := i;
      }
    }
  }

  /** The first action, in the order Stop, Up, Down, Left, Right, Bomb,
      whose children's average aggregating reward is largest; none when
      some action has no children. */
  method BestAction<O>(root: Node<O>) returns (r: Option<Action>)
    ensures r.None? <==> exists a :: |Kids(root, a)| == 0
    ensures r.Some? ==> forall b :: NoWorse(root, r.value, b)
    ensures r.Some? ==> forall b: Action | b.Value() < r.value.Value() :: Better(root, r.value, b)
  {
    if |Kids(root, Stop)| == 0 || |Kids(root, Up)| == 0 || |Kids(root, Down)| == 0
      || |Kids(root, Left)| == 0 || |Kids(root, Right)| == 0 || |Kids(root, Bomb)| == 0
    {
      return None;
    }
    var avgs := seq(6, i requires 0 <= i < 6 => Average(root, Actions[i]).value);
    var best := FirstMax(avgs);
    var a := Actions[best];
    assert a.Value() == best;
    forall b: Action ensures NoWorse(root, a, b) && (b.Value() < best ==> Better(root, a, b)) {
      ActionAt(b);
      assert avgs[b.Value()] == Average(root, b).value;
    }
    r := Some(a);
  }

  /* ---------------------------------------------------------------------
     The tree
     --------------------------------------------------------------------- */

  datatype Tree<O> = Tree(root: Node<O>, level: nat, bestAction: Action)

  /** A new tree: a fresh root node flagged as the root, with reward 0, and
      Stop as the best action until a search says otherwise. */
  function NewTree<O>(f: Forward<O>, obs: O, level: nat): (t: Tree<O>)
    ensures t.bestAction == Stop && t.root.isRoot && t.level == level
    ensures Balanced(t.root) && t.root.numChildren == 0 && t.root.counter == f.count(obs)
    ensures forall a :: |Kids(t.root, a)| == 0
  {
    Tree(NewNode(obs, 0.0, f.count(obs), true), level, Stop)
  }

  /** One search: grow the tree to its level, initialise the leaves,
      backpropagate and pick the best action at the root. It succeeds
      whenever the search goes at least one level deep and every action
      draws at least one observation from the root. */
  method Search<O>(f: Forward<O>, t: Tree<O>) returns (r: Option<Action>)
    ensures t.level > 0 && (forall a :: |f.next(t.root.obs, a)| > 0) ==> r.Some?
    ensures r.Some? ==> forall b :: NoWorse(Evaluate(Grow(f, t.root, t.level), t.level), r.value, b)
    ensures r.Some? ==> forall b: Action | b.Value() < r.value.Value() ::
      Better(Evaluate(Grow(f, t.root, t.level), t.level), r.value, b)
  {
    var grown := Grow(f, t.root, t.level);
    var evaluated := Evaluate(grown, t.level);
    r := BestAction(evaluated);
  }
}

=== FILE: reward.dfy ===
/** The reward model: classifies an observation into a mode and scores it
    under that mode. Evade scores the danger from bombs around the agent;
    Attack scores how much a bomb dropped at a cell would hem in the area
    around it. */
module Reward {
  import opened Game

  datatype Mode = Evade | Attack | Explore

  /* ---------------------------------------------------------------------
     Evade trigger
     --------------------------------------------------------------------- */

  /** A bomb threatens p when p lies within its blast strength, by
      Manhattan distance. */
  predicate Threatens(b: BombInfo, p: Pos) {
    Distance(b.pos, p) <= b.strength
  }

  /** The bombs that threaten p, in list order. */
  function Threats(p: Pos, bombs: seq<BombInfo>): (ts: seq<BombInfo>)
    ensures |ts| <= |bombs|
    ensures forall b | b in ts :: b in bombs && Threatens(b, p)
    ensures forall b | b in bombs && Threatens(b, p) :: b in ts
  {
    if bombs == [] then []
    else
      var last := bombs[|bombs| - 1];
      Threats(p, bombs[..|bombs| - 1]) + (if Threatens(last, p) then [last] else [])
  }

  predicate OnBoardBombs(bombs: seq<BombInfo>) {
    forall b | b in bombs :: OnBoard(b.pos)
  }

  /** The total remaining life of the given bombs. */
  function FuseSum(bombs: seq<BombInfo>, life: Grid): int
    requires IsBoard(life) && OnBoardBombs(bombs)
  {
    if bombs == [] then 0
    else FuseSum(bombs[..|bombs| - 1], life) + At(life, bombs[|bombs| - 1].pos)
  }

  /** The agent at p must evade when the fuses of the bombs threatening it
      sum to less than 5 plus 2 per threatening bomb. */
  predicate EvadeTrigger(p: Pos, bombs: seq<BombInfo>, life: Grid)
    requires IsBoard(life) && OnBoardBombs(bombs)
  {
    var ts := Threats(p, bombs);
    FuseSum(ts, life) < 5 + 2 * |ts|
  }

  /** The source's loop: count the threatening bombs and add up their lives. */
  method EvadeCondition(p: Pos, bombs: seq<BombInfo>, life: Grid) returns (evade: bool)
    requires IsBoard(life) && OnBoardBombs(bombs)
    ensures evade <==> FuseSum(Threats(p, bombs), life) < 5 + 2 * |Threats(p, bombs)|
  {
    var bombCount := 0;
    var tickCount := 0;
    for k := 0 to |bombs|
      invariant bombCount == |Threats(p, bombs[..k])|
      invariant tickCount == FuseSum(Threats(p, bombs[..k]), life)
    {
      assert bombs[..k + 1][..k] == bombs[..k];
      var ts := Threats(p, bombs[..k]);
      assert (ts + [bombs[k]])[..|ts|] == ts;
      assert Threats(p, bombs[..k + 1]) == ts + (if Threatens(bombs[k], p) then [bombs[k]] else []);
      if Distance(bombs[k].pos, p) <= bombs[k].strength {
        assert FuseSum(ts + [bombs[k]], life) == FuseSum(ts, life) + At(life, bombs[k].pos);
        bombCount := bombCount + 1;
        tickCount := tickCount + At(life, bombs[k].pos);
      } else {
        assert ts + [] == ts;
      }
    }
    assert bombs[..|bombs|] == bombs;
    evade := tickCount < 5 + 2 * bombCount;
  }

  /** With no bomb in range the trigger fires, since 0 < 5. */
  lemma EvadeWithoutThreats(p: Pos, bombs: seq<BombInfo>, life: Grid)
    requires IsBoard(life) && OnBoardBombs(bombs)
    requires forall b | b in bombs :: !Threatens(b, p)
    ensures EvadeTrigger(p, bombs, life)
  {
    if Threats(p, bombs) != [] {
      assert Threats(p, bombs)[0] in Threats(p, bombs);
    }
  }

  /** One more threatening bomb whose life is at most 2 keeps the trigger
      firing: urgency adds up over simultaneous threats. */
  lemma {:induction false} EvadeAddsUrgentThreat(p: Pos, bombs: seq<BombInfo>, b: BombInfo, life: Grid)
    requires IsBoard(life) && OnBoardBombs(bombs + [b])
    requires Threatens(b, p) && At(life, b.pos) <= 2
    requires EvadeTrigger(p, bombs, life)
    ensures EvadeTrigger(p, bombs + [b], life)
  {
    assert (bombs + [b])[..|bombs|] == bombs;
    var ts := Threats(p, bombs);
    assert Threats(p, bombs + [b]) == ts + [b];
    assert (ts + [b])[..|ts|] == ts;
  }

  /* ---------------------------------------------------------------------
     Evade score
     --------------------------------------------------------------------- */

  /** What cell (i, j) takes off the evade score of an agent at p: a bomb
      whose strength reaches p costs 25 * (11 - life) / 10. */
  function CellPenalty(p: Pos, strength: Grid, life: Grid, i: int, j: int): real
    requires IsBoard(strength) && IsBoard(life) && 0 <= i < Size && 0 <= j < Size
  {
    if strength[i][j] > 0 && strength[i][j] >= Distance(p, Pos(i, j))
    then 25.0 * (11 - life[i][j]) as real / 10.0
    else 0.0
  }

  /** Penalty of cells (i, 0) .. (i, j - 1). */
  function RowPenalty(p: Pos, strength: Grid, life: Grid, i: int, j: nat): real
    requires IsBoard(strength) && IsBoard(life) && 0 <= i < Size && j <= Size
  {
    if j == 0 then 0.0
    else RowPenalty(p, strength, life, i, j - 1) + CellPenalty(p, strength, life, i, j - 1)
  }

  /** Penalty of rows 0 .. i - 1. */
  function BoardPenalty(p: Pos, strength: Grid, life: Grid, i: nat): real
    requires IsBoard(strength) && IsBoard(life) && i <= Size
  {
    if i == 0 then 0.0
    else BoardPenalty(p, strength, life, i - 1) + RowPenalty(p, strength, life, i - 1, Size)
  }

  /** The evade score of an agent at p: 100 less every cell's penalty. */
  method EvadeScore(p: Pos, strength: Grid, life: Grid) returns (score: real)
    requires IsBoard(strength) && IsBoard(life)
    ensures score == 100.0 - BoardPenalty(p, strength, life, Size)
  {
    score := 100.0;
    for i := 0 to |strength|
      invariant score == 100.0 - BoardPenalty(p, strength, life, i)
    {
      for j := 0 to |strength[0]|
        invariant score == 100.0 - BoardPenalty(p, strength, life, i) - RowPenalty(p, strength, life, i, j)
      {
        if strength[i][j] > 0 && strength[i][j] >= Abs(p.r - i) + Abs(p.c - j) {
          score := score - (25.0 * (11 - life[i][j]) as real / 10.0);
        }
      }
    }
  }

  /** Cells without a bomb cost nothing: with no positive blast strength
      anywhere the evade score is exactly 100. */
  lemma {:induction false} NoBombsNoPenalty(p: Pos, strength: Grid, life: Grid, i: nat)
    requires IsBoard(strength) && IsBoard(life) && i <= Size
    requires forall r, c | 0 <= r < Size && 0 <= c < Size :: strength[r][c] <= 0
    ensures BoardPenalty(p, strength, life, i) == 0.0
  {
    if i > 0 {
      NoBombsNoPenalty(p, strength, life, i - 1);
      NoBombsRowPenalty(p, strength, life, i - 1, Size);
    }
  }

  lemma {:induction false} NoBombsRowPenalty(p: Pos, strength: Grid, life: Grid, i: int, j: nat)
    requires IsBoard(strength) && IsBoard(life) && 0 <= i < Size && j <= Size
    requires forall c | 0 <= c < Size :: strength[i][c] <= 0
    ensures RowPenalty(p, strength, life, i, j) == 0.0
  {
    if j > 0 {
      NoBombsRowPenalty(p, strength, life, i, j - 1);
    }
  }

  /** With every bomb life at most 11 no cell adds to the score, so it
      never exceeds 100. */
  lemma {:induction false} PenaltyNonNegative(p: Pos, strength: Grid, life: Grid, i: nat)
    requires IsBoard(strength) && IsBoard(life) && i <= Size
    requires forall r, c | 0 <= r < Size && 0 <= c < Size :: life[r][c] <= 11
    ensures BoardPenalty(p, strength, life, i) >= 0.0
  {
    if i > 0 {
      PenaltyNonNegative(p, strength, life, i - 1);
      RowPenaltyNonNegative(p, strength, life, i - 1, Size);
    }
  }

  lemma {:induction false} RowPenaltyNonNegative(p: Pos, strength: Grid, life: Grid, i: int, j: nat)
    requires IsBoard(strength) && IsBoard(life) && 0 <= i < Size && j <= Size
    requires forall c | 0 <= c < Size :: life[i][c] <= 11
    ensures RowPenalty(p, strength, life, i, j) >= 0.0
  {
    if j > 0 {
      RowPenaltyNonNegative(p, strength, life, i, j - 1);
    }
  }

  /** Changing the life of one bomb cell (i0, j0) changes the total penalty
      by exactly the change in that cell's own penalty. */
  lemma {:induction false} RowPenaltyOneCell(p: Pos, strength: Grid, life: Grid, life': Grid, i: int, j: nat, i0: int, j0: int)
    requires IsBoard(strength) && IsBoard(life) && IsBoard(life')
    requires 0 <= i < Size && j <= Size && 0 <= i0 < Size && 0 <= j0 < Size
    requires forall r, c | 0 <= r < Size && 0 <= c < Size && (r != i0 || c != j0) :: life'[r][c] == life[r][c]
    ensures RowPenalty(p, strength, life', i, j) - RowPenalty(p, strength, life, i, j)
         == if i == i0 && j0 < j then CellPenalty(p, strength, life', i0, j0) - CellPenalty(p, strength, life, i0, j0) else 0.0
  {
    if j > 0 {
      RowPenaltyOneCell(p, strength, life, life', i, j - 1, i0, j0);
    }
  }

  lemma {:induction false} BoardPenaltyOneCell(p: Pos, strength: Grid, life: Grid, life': Grid, i: nat, i0: int, j0: int)
    requires IsBoard(strength) && IsBoard(life) && IsBoard(life')
    requires i <= Size && 0 <= i0 < Size && 0 <= j0 < Size
    requires forall r, c | 0 <= r < Size && 0 <= c < Size && (r != i0 || c != j0) :: life'[r][c] == life[r][c]
    ensures BoardPenalty(p, strength, life', i) - BoardPenalty(p, strength, life, i)
         == if i0 < i then CellPenalty(p, strength, life', i0, j0) - CellPenalty(p, strength, life, i0, j0) else 0.0
  {
    if i > 0 {
      BoardPenaltyOneCell(p, strength, life, life', i - 1, i0, j0);
      RowPenaltyOneCell(p, strength, life, life', i - 1, Size, i0, j0);
    }
  }

  /** Bringing one bomb closer to detonation never raises the evade score:
      lowering the life at (i0, j0) lowers the score by 2.5 per tick when
      that bomb reaches the agent, and leaves it unchanged otherwise. */
  lemma EvadeScoreMonotone(p: Pos, strength: Grid, life: Grid, i0: int, j0: int, newLife: int)
    requires IsBoard(strength) && IsBoard(life) && 0 <= i0 < Size && 0 <= j0 < Size
    requires newLife <= life[i0][j0]
    ensures var life' := life[i0 := life[i0][j0 := newLife]];
      var reaches := strength[i0][j0] > 0 && strength[i0][j0] >= Distance(p, Pos(i0, j0));
      && IsBoard(life')
      && BoardPenalty(p, strength, life', Size)
         == BoardPenalty(p, strength, life, Size)
            + (if reaches then 2.5 * (life[i0][j0] - newLife) as real else 0.0)
      && 100.0 - BoardPenalty(p, strength, life', Size) <= 100.0 - BoardPenalty(p, strength, life, Size)
  {
    var life' := life[i0 := life[i0][j0 := newLife]];
    BoardPenaltyOneCell(p, strength, life, life', Size, i0, j0);
  }

  /* ---------------------------------------------------------------------
     Fill area: the diamond of radius 2, clipped by the board edges
     --------------------------------------------------------------------- */

  function Min(a: int, b: int): int {
    if a <= b then a else b
  }

  /** A coordinate's distance to the nearer board edge, clamped at 2. */
  function ToBound(x: int): int {
    Min(2, Min(x - 0, Size - 1 - x))
  }

  /** How many cells of the radius-2 diamond around p would lie on the
      board, read from a table keyed by each coordinate's distance to the
      nearer edge, clamped at 2. */
  function FillArea(p: Pos): (area: int)
    ensures area in {6, 8, 9, 11, 12, 13}
    ensures area == 13 <==> 2 <= p.r <= Size - 3 && 2 <= p.c <= Size - 3
  {
    var rToBound := ToBound(p.r);
    var cToBound := ToBound(p.c);
    if rToBound < 2 || cToBound < 2 then
      if rToBound == 0 && cToBound == 0 then 6
      else if rToBound == 1 && cToBound == 1 then 11
      else if rToBound < 2 && cToBound < 2 then 8
      else if rToBound == 0 || cToBound == 0 then 9
      else 12
    else 13
  }

  /** The table does not care which coordinate is the row, nor which edge
      is the nearer one. */
  lemma FillAreaSymmetric(p: Pos)
    ensures FillArea(Pos(p.c, p.r)) == FillArea(p)
    ensures FillArea(Pos(Size - 1 - p.r, p.c)) == FillArea(p)
    ensures FillArea(Pos(p.r, Size - 1 - p.c)) == FillArea(p)
  {
    assert ToBound(Size - 1 - p.r) == ToBound(p.r);
    assert ToBound(Size - 1 - p.c) == ToBound(p.c);
  }

  /* ---------------------------------------------------------------------
     Empty safe area: blast marking and the diamond count
     --------------------------------------------------------------------- */

  /** The scratch board of the attack score: 0 empty, 1 blocked by a wall,
      wood or an enemy, 2 reached by a blast. */
  datatype Mark = Empty | Blocked | Blast

  type Marks = seq<seq<Mark>>

  /** The marks start empty except for rigid walls, wood and enemies. */
  function InitialMarks(o: Observation): (g: Marks)
    requires o.Valid()
    ensures IsBoard(g)
    ensures forall r, c | 0 <= r < Size && 0 <= c < Size ::
      g[r][c] != Blast
      && (g[r][c] == Blocked <==> o.board[r][c] == Rigid || o.board[r][c] == Wood || o.board[r][c] in o.enemies)
  {
    seq(Size, r requires 0 <= r < Size =>
      seq(Size, c requires 0 <= c < Size =>
        if o.board[r][c] == Rigid || o.board[r][c] == Wood || o.board[r][c] in o.enemies
        then Blocked else Empty))
  }

  /** h is g with some empty cells flamed, and nothing else changed. */
  predicate Grows(g: Marks, h: Marks) {
    && IsBoard(g) && IsBoard(h)
    && forall r, c | 0 <= r < Size && 0 <= c < Size ::
         h[r][c] == g[r][c] || (g[r][c] == Empty && h[r][c] == Blast)
  }

  lemma GrowsTransitive(g: Marks, h: Marks, k: Marks)
    requires Grows(g, h) && Grows(h, k)
    ensures Grows(g, k)
  {
  }

  /** The four directions a blast travels in. */
  datatype Dir = DownRay | UpRay | RightRay | LeftRay

  /** The cell i steps from b in direction d. */
  function Step(b: Pos, d: Dir, i: int): Pos {
    match d
    case DownRay => Pos(b.r + i, b.c)
    case UpRay => Pos(b.r - i, b.c)
    case RightRay => Pos(b.r, b.c + i)
    case LeftRay => Pos(b.r, b.c - i)
  }

  /** q is at least i steps from b in direction d. */
  predicate OnRay(b: Pos, d: Dir, i: int, q: Pos) {
    match d
    case DownRay => q.c == b.c && q.r >= b.r + i
    case UpRay => q.c == b.c && q.r <= b.r - i
    case RightRay => q.r == b.r && q.c >= b.c + i
    case LeftRay => q.r == b.r && q.c <= b.c - i
  }

  function Set(g: Marks, q: Pos, m: Mark): (h: Marks)
    requires IsBoard(g) && OnBoard(q)
    ensures IsBoard(h)
  {
    g[q.r := g[q.r][q.c := m]]
  }

  /** One blast ray from the bomb at b, covering steps i .. n - 1 (step 0
      is the bomb's own cell). An empty cell is flamed; a blocked cell ends
      the ray, and so does an already flamed cell when stopOnBlast; cells
      off the board are skipped. */
  function Ray(g: Marks, b: Pos, d: Dir, i: nat, n: int, stopOnBlast: bool): (h: Marks)
    requires IsBoard(g)
    ensures Grows(g, h)
    ensures forall r, c | 0 <= r < Size && 0 <= c < Size && !OnRay(b, d, i, Pos(r, c)) :: h[r][c] == g[r][c]
    decreases if i < n then n - i else 0
  {
    if i >= n then g
    else
      var q := Step(b, d, i);
      if OnBoard(q) && g[q.r][q.c] == Empty then
        Ray(Set(g, q, Blast), b, d, i + 1, n, stopOnBlast)
      else if OnBoard(q) && (g[q.r][q.c] == Blocked || (stopOnBlast && g[q.r][q.c] == Blast)) then
        g
      else
        Ray(g, b, d, i + 1, n, stopOnBlast)
  }

  /** All four rays of one bomb: down, up, right, left. The source stops
      its downward ray at an already flamed cell when downStopsOnBlast. */
  function MarkBomb(g: Marks, b: BombInfo, downStopsOnBlast: bool): (h: Marks)
    requires IsBoard(g)
    ensures Grows(g, h)
  {
    var g1 := Ray(g, b.pos, DownRay, 0, b.strength, downStopsOnBlast);
    var g2 := Ray(g1, b.pos, UpRay, 0, b.strength, false);
    var g3 := Ray(g2, b.pos, RightRay, 0, b.strength, false);
    var g4 := Ray(g3, b.pos, LeftRay, 0, b.strength, false);
    GrowsTransitive(g, g1, g2);
    GrowsTransitive(g, g2, g3);
    GrowsTransitive(g, g3, g4);
    g4
  }

  /** Every bomb's rays, bomb by bomb in list order. */
  function MarkAll(g: Marks, bombs: seq<BombInfo>, downStopsOnBlast: bool): (h: Marks)
    requires IsBoard(g)
    ensures Grows(g, h)
    decreases bombs
  {
    if bombs == [] then g
    else
      var g1 := MarkBomb(g, bombs[0], downStopsOnBlast);
      var h := MarkAll(g1, bombs[1..], downStopsOnBlast);
      GrowsTransitive(g, g1, h);
      h
  }

  /** The marks the source's attack score counts over: its downward ray also
      stops at a cell an earlier bomb has already flamed. */
  function SourceMarks(o: Observation): (g: Marks)
    requires o.Valid()
    ensures Grows(InitialMarks(o), g)
  {
    MarkAll(InitialMarks(o), ConvertBombs(o.bombBlastStrength), true)
  }

  /** The corrected blast marking, in which no ray stops at an already
      flamed cell. */
  function BlastMarks(o: Observation): (g: Marks)
    requires o.Valid()
    ensures Grows(InitialMarks(o), g)
  {
    MarkAll(InitialMarks(o), ConvertBombs(o.bombBlastStrength), false)
  }

  /** No cell from step i to step k of the ray is blocked. */
  predicate Unblocked(g: Marks, b: Pos, d: Dir, i: int, k: int)
    requires IsBoard(g)
  {
    forall m | i <= m <= k && OnBoard(Step(b, d, m)) :: g[Step(b, d, m).r][Step(b, d, m).c] != Blocked
  }

  /** Flaming never creates or removes a blocked cell, so a clear path stays clear. */
  lemma UnblockedGrows(g: Marks, h: Marks, b: Pos, d: Dir, i: int, k: int)
    requires Grows(g, h) && Unblocked(g, b, d, i, k)
    ensures Unblocked(h, b, d, i, k)
  {
  }

  /** Flaming one empty cell is growth. */
  lemma FlameGrows(g: Marks, q: Pos)
    requires IsBoard(g) && OnBoard(q) && g[q.r][q.c] == Empty
    ensures Grows(g, Set(g, q, Blast))
    ensures Set(g, q, Blast)[q.r][q.c] == Blast
  {
  }

  /** A ray that does not stop at flamed cells flames every cell it reaches
      before the first blocked one. */
  lemma {:induction false} RayFlamesUntilBlocked(g: Marks, b: Pos, d: Dir, i: nat, n: int, k: int)
    requires IsBoard(g) && i <= k < n
    requires OnBoard(Step(b, d, k)) && Unblocked(g, b, d, i, k)
    ensures var q := Step(b, d, k); Ray(g, b, d, i, n, false)[q.r][q.c] == Blast
    decreases n - i, 1
  {
    var q := Step(b, d, i);
    if OnBoard(q) && g[q.r][q.c] == Empty {
      RayFlamesFromEmpty(g, b, d, i, n, k);
    } else {
      RayFlamesPastCell(g, b, d, i, n, k);
    }
  }

  /** The ray flames the empty cell at step i and carries on from i + 1. */
  lemma {:induction false} RayFlamesFromEmpty(g: Marks, b: Pos, d: Dir, i: nat, n: int, k: int)
    requires IsBoard(g) && i <= k < n
    requires OnBoard(Step(b, d, k)) && Unblocked(g, b, d, i, k)
    requires OnBoard(Step(b, d, i)) && g[Step(b, d, i).r][Step(b, d, i).c] == Empty
    ensures var q := Step(b, d, k); Ray(g, b, d, i, n, false)[q.r][q.c] == Blast
    decreases n - i, 0
  {
    var q := Step(b, d, i);
    var g' := Set(g, q, Blast);
    FlameGrows(g, q);
    assert Ray(g, b, d, i, n, false) == Ray(g', b, d, i + 1, n, false);
    if i < k {
      UnblockedGrows(g, g', b, d, i, k);
      RayFlamesUntilBlocked(g', b, d, i + 1, n, k);
    } else {
      RayKeepsPassedCell(g', b, d, i, n);
    }
  }

  /** Step i is off the board or already flamed: the ray goes on from i + 1. */
  lemma {:induction false} RayFlamesPastCell(g: Marks, b: Pos, d: Dir, i: nat, n: int, k: int)
    requires IsBoard(g) && i <= k < n
    requires OnBoard(Step(b, d, k)) && Unblocked(g, b, d, i, k)
    requires !(OnBoard(Step(b, d, i)) && g[Step(b, d, i).r][Step(b, d, i).c] == Empty)
    ensures var q := Step(b, d, k); Ray(g, b, d, i, n, false)[q.r][q.c] == Blast
    decreases n - i, 0
  {
    var q := Step(b, d, i);
    assert OnBoard(q) ==> g[q.r][q.c] != Blocked;
    assert Ray(g, b, d, i, n, false) == Ray(g, b, d, i + 1, n, false);
    if i < k {
      RayFlamesUntilBlocked(g, b, d, i + 1, n, k);
    } else {
      RayKeepsPassedCell(g, b, d, i, n);
    }
  }

  /** The rest of a ray leaves the cell it has just passed alone. */
  lemma RayKeepsPassedCell(g: Marks, b: Pos, d: Dir, i: nat, n: int)
    requires IsBoard(g) && OnBoard(Step(b, d, i))
    ensures var q := Step(b, d, i); Ray(g, b, d, i + 1, n, false)[q.r][q.c] == g[q.r][q.c]
  {
    var q := Step(b, d, i);
    assert !OnRay(b, d, i + 1, q);
  }

  /** The corrected marking of one bomb flames every cell each of its rays
      reaches before a blocked cell. */
  lemma MarkBombFlames(g: Marks, b: BombInfo, d: Dir, k: int)
    requires IsBoard(g) && 0 <= k < b.strength
    requires OnBoard(Step(b.pos, d, k)) && Unblocked(g, b.pos, d, 0, k)
    ensures var q := Step(b.pos, d, k); MarkBomb(g, b, false)[q.r][q.c] == Blast
  {
    var g1 := Ray(g, b.pos, DownRay, 0, b.strength, false);
    var g2 := Ray(g1, b.pos, UpRay, 0, b.strength, false);
    var g3 := Ray(g2, b.pos, RightRay, 0, b.strength, false);
    match d
    case DownRay =>
      RayFlamesUntilBlocked(g, b.pos, d, 0, b.strength, k);
    case UpRay =>
      UnblockedGrows(g, g1, b.pos, d, 0, k);
      RayFlamesUntilBlocked(g1, b.pos, d, 0, b.strength, k);
    case RightRay =>
      GrowsTransitive(g, g1, g2);
      UnblockedGrows(g, g2, b.pos, d, 0, k);
      RayFlamesUntilBlocked(g2, b.pos, d, 0, b.strength, k);
    case LeftRay =>
      GrowsTransitive(g, g1, g2);
      GrowsTransitive(g, g2, g3);
      UnblockedGrows(g, g3, b.pos, d, 0, k);
      RayFlamesUntilBlocked(g3, b.pos, d, 0, b.strength, k);
  }

  /** The corrected marking of all bombs flames every cell any bomb's ray
      reaches before a wall, wood or enemy, whatever the bomb order. */
  lemma {:induction false} MarkAllFlames(g: Marks, bombs: seq<BombInfo>, j: int, d: Dir, k: int)
    requires IsBoard(g) && 0 <= j < |bombs| && 0 <= k < bombs[j].strength
    requires OnBoard(Step(bombs[j].pos, d, k)) && Unblocked(g, bombs[j].pos, d, 0, k)
    ensures var q := Step(bombs[j].pos, d, k); MarkAll(g, bombs, false)[q.r][q.c] == Blast
    decreases bombs
  {
    var g1 := MarkBomb(g, bombs[0], false);
    if j == 0 {
      MarkBombFlames(g, bombs[0], d, k);
    } else {
      UnblockedGrows(g, g1, bombs[j].pos, d, 0, k);
      MarkAllFlames(g1, bombs[1..], j - 1, d, k);
    }
  }

  /** Flaming never unblocks a cell, so a path clear after flaming was clear
      before. */
  lemma UnblockedShrinks(g: Marks, h: Marks, b: Pos, d: Dir, i: int, k: int)
    requires Grows(g, h) && Unblocked(h, b, d, i, k)
    ensures Unblocked(g, b, d, i, k)
  {
  }

  /** Bomb b's ray in direction d reaches q within its strength, with no
      blocked cell from the bomb's own cell up to q. */
  ghost predicate Reaches(g: Marks, b: BombInfo, q: Pos)
    requires IsBoard(g)
  {
    exists d: Dir, k | 0 <= k < b.strength :: Step(b.pos, d, k) == q && Unblocked(g, b.pos, d, 0, k)
  }

  /** Reaching survives un-flaming: what a bomb reaches on a grown grid it
      reaches on the smaller one. */
  lemma ReachesShrinks(g: Marks, h: Marks, b: BombInfo, q: Pos)
    requires Grows(g, h) && Reaches(h, b, q)
    ensures Reaches(g, b, q)
  {
    var d: Dir, k :| 0 <= k < b.strength && Step(b.pos, d, k) == q && Unblocked(h, b.pos, d, 0, k);
    UnblockedShrinks(g, h, b.pos, d, 0, k);
  }

  /** Conversely, a ray, whichever way it treats flamed cells, flames only
      cells it reaches from step i with no blocked cell on the way. */
  lemma RayFlamesOnlyReached(g: Marks, b: Pos, d: Dir, i: nat, n: int, s: bool, q: Pos)
    requires IsBoard(g) && OnBoard(q)
    requires Ray(g, b, d, i, n, s)[q.r][q.c] == Blast && g[q.r][q.c] != Blast
    ensures exists k | i <= k < n :: Step(b, d, k) == q && Unblocked(g, b, d, i, k)
  {
    var k := RayReachedStep(g, b, d, i, n, s, q);
  }

  /** The step at which the ray flamed q. */
  lemma {:induction false} RayReachedStep(g: Marks, b: Pos, d: Dir, i: nat, n: int, s: bool, q: Pos) returns (k: int)
    requires IsBoard(g) && OnBoard(q)
    requires Ray(g, b, d, i, n, s)[q.r][q.c] == Blast && g[q.r][q.c] != Blast
    ensures i <= k < n && Step(b, d, k) == q && Unblocked(g, b, d, i, k)
    decreases if i < n then n - i else 0, 1
  {
    if i >= n {
      assert false;
    }
    var q0 := Step(b, d, i);
    if OnBoard(q0) && g[q0.r][q0.c] == Empty {
      k := ReachedFromEmpty(g, b, d, i, n, s, q);
    } else {
      k := ReachedPastCell(g, b, d, i, n, s, q);
    }
  }

  /** Step i is empty: the ray flames it, and anything further it flames is
      reached past it. */
  lemma {:induction false} ReachedFromEmpty(g: Marks, b: Pos, d: Dir, i: nat, n: int, s: bool, q: Pos) returns (k: int)
    requires IsBoard(g) && OnBoard(q) && i < n
    requires OnBoard(Step(b, d, i)) && g[Step(b, d, i).r][Step(b, d, i).c] == Empty
    requires Ray(g, b, d, i, n, s)[q.r][q.c] == Blast && g[q.r][q.c] != Blast
    ensures i <= k < n && Step(b, d, k) == q && Unblocked(g, b, d, i, k)
    decreases n - i, 0
  {
    var q0 := Step(b, d, i);
    var g' := Set(g, q0, Blast);
    FlameGrows(g, q0);
    assert Ray(g, b, d, i, n, s) == Ray(g', b, d, i + 1, n, s);
    if q == q0 {
      k := i;
      assert Unblocked(g, b, d, i, k);
    } else {
      assert g'[q.r][q.c] == g[q.r][q.c];
      k := RayReachedStep(g', b, d, i + 1, n, s, q);
      UnblockedShrinks(g, g', b, d, i + 1, k);
      UnblockedExtend(g, b, d, i, k);
    }
  }

  /** A clear path from step i + 1 stays clear from step i when step i
      itself is not blocked. */
  lemma UnblockedExtend(g: Marks, b: Pos, d: Dir, i: int, k: int)
    requires IsBoard(g) && Unblocked(g, b, d, i + 1, k)
    requires OnBoard(Step(b, d, i)) ==> g[Step(b, d, i).r][Step(b, d, i).c] != Blocked
    ensures Unblocked(g, b, d, i, k)
  {
    forall m | i <= m <= k && OnBoard(Step(b, d, m))
      ensures g[Step(b, d, m).r][Step(b, d, m).c] != Blocked
    {
      if m > i {
        assert i + 1 <= m <= k;
      }
    }
  }

  /** Step i is off the board or not empty: whatever the ray flames lies
      further on, since it stops at a blocked cell. */
  lemma {:induction false} ReachedPastCell(g: Marks, b: Pos, d: Dir, i: nat, n: int, s: bool, q: Pos) returns (k: int)
    requires IsBoard(g) && OnBoard(q) && i < n
    requires !(OnBoard(Step(b, d, i)) && g[Step(b, d, i).r][Step(b, d, i).c] == Empty)
    requires Ray(g, b, d, i, n, s)[q.r][q.c] == Blast && g[q.r][q.c] != Blast
    ensures i <= k < n && Step(b, d, k) == q && Unblocked(g, b, d, i, k)
    decreases n - i, 0
  {
    var q0 := Step(b, d, i);
    assert OnBoard(q0) ==> g[q0.r][q0.c] == Blast && !s;
    assert Ray(g, b, d, i, n, s) == Ray(g, b, d, i + 1, n, s);
    k := RayReachedStep(g, b, d, i + 1, n, s, q);
    UnblockedExtend(g, b, d, i, k);
  }

  /** One bomb's marking flames only cells the bomb reaches. */
  lemma MarkBombOnlyReached(g: Marks, b: BombInfo, s: bool, q: Pos)
    requires IsBoard(g) && OnBoard(q)
    requires MarkBomb(g, b, s)[q.r][q.c] == Blast && g[q.r][q.c] != Blast
    ensures Reaches(g, b, q)
  {
    var g1 := Ray(g, b.pos, DownRay, 0, b.strength, s);
    var g2 := Ray(g1, b.pos, UpRay, 0, b.strength, false);
    var g3 := Ray(g2, b.pos, RightRay, 0, b.strength, false);
    var g4 := Ray(g3, b.pos, LeftRay, 0, b.strength, false);
    assert g4 == MarkBomb(g, b, s);
    GrowsTransitive(g, g1, g2);
    GrowsTransitive(g, g2, g3);
    var d: Dir, h: Marks;
    if g1[q.r][q.c] == Blast {
      d, h := DownRay, g;
    } else if g2[q.r][q.c] == Blast {
      d, h := UpRay, g1;
    } else if g3[q.r][q.c] == Blast {
      d, h := RightRay, g2;
    } else {
      d, h := LeftRay, g3;
    }
    RayFlamesOnlyReached(h, b.pos, d, 0, b.strength, if d == DownRay then s else false, q);
    var k :| 0 <= k < b.strength && Step(b.pos, d, k) == q && Unblocked(h, b.pos, d, 0, k);
    UnblockedShrinks(g, h, b.pos, d, 0, k);
  }

  /** The marking of all bombs, whichever way the downward ray treats flamed
      cells, flames only cells some bomb reaches. */
  lemma {:induction false} MarkAllOnlyReached(g: Marks, bombs: seq<BombInfo>, s: bool, q: Pos)
    requires IsBoard(g) && OnBoard(q)
    requires MarkAll(g, bombs, s)[q.r][q.c] == Blast && g[q.r][q.c] != Blast
    ensures exists j | 0 <= j < |bombs| :: Reaches(g, bombs[j], q)
    decreases bombs
  {
    if bombs == [] {
      assert false;
    }
    var g1 := MarkBomb(g, bombs[0], s);
    assert MarkAll(g, bombs, s) == MarkAll(g1, bombs[1..], s);
    if g1[q.r][q.c] == Blast {
      MarkBombOnlyReached(g, bombs[0], s, q);
    } else {
      MarkAllOnlyReached(g1, bombs[1..], s, q);
      var j :| 0 <= j < |bombs[1..]| && Reaches(g1, bombs[1..][j], q);
      ReachesShrinks(g, g1, bombs[j + 1], q);
    }
  }

  /** The corrected marking flames exactly the cells some bomb reaches
      before a wall, wood or enemy. */
  lemma BlastMarksExactly(o: Observation, q: Pos)
    requires o.Valid() && OnBoard(q)
    ensures var bombs := ConvertBombs(o.bombBlastStrength);
      BlastMarks(o)[q.r][q.c] == Blast <==> exists j | 0 <= j < |bombs| :: Reaches(InitialMarks(o), bombs[j], q)
  {
    var bombs := ConvertBombs(o.bombBlastStrength);
    var g := InitialMarks(o);
    if BlastMarks(o)[q.r][q.c] == Blast {
      MarkAllOnlyReached(g, bombs, false, q);
    }
    if exists j | 0 <= j < |bombs| :: Reaches(g, bombs[j], q) {
      var j :| 0 <= j < |bombs| && Reaches(g, bombs[j], q);
      var d: Dir, k :| 0 <= k < bombs[j].strength && Step(bombs[j].pos, d, k) == q && Unblocked(g, bombs[j].pos, d, 0, k);
      MarkAllFlames(g, bombs, j, d, k);
    }
  }

  /** Every cell the source's marking flames, the corrected one flames too:
      the correction only adds flames. */
  lemma SourceMarksWithinCorrected(o: Observation)
    requires o.Valid()
    ensures Grows(SourceMarks(o), BlastMarks(o))
  {
    var g := InitialMarks(o);
    var bombs := ConvertBombs(o.bombBlastStrength);
    forall r, c | 0 <= r < Size && 0 <= c < Size
      ensures SourceMarks(o)[r][c] == BlastMarks(o)[r][c]
        || (SourceMarks(o)[r][c] == Empty && BlastMarks(o)[r][c] == Blast)
    {
      if SourceMarks(o)[r][c] == Blast {
        MarkAllOnlyReached(g, bombs, true, Pos(r, c));
        BlastMarksExactly(o, Pos(r, c));
      }
    }
  }

  /** The source's marking stops its downward ray at a bomb whose own cell an
      earlier bomb has already flamed, so the empty cell right below it is
      never flamed; the corrected marking flames it. Bombs of strength 5 at
      (0, 0) and (0, 3) on an empty board produce exactly this grid for the
      second bomb. */
  lemma DownRayStopsAtFlamedBombCell(g: Marks, b: BombInfo)
    requires IsBoard(g) && OnBoard(b.pos) && b.pos.r + 1 < Size && b.strength >= 2
    requires g[b.pos.r][b.pos.c] == Blast && g[b.pos.r + 1][b.pos.c] == Empty
    ensures MarkBomb(g, b, true)[b.pos.r + 1][b.pos.c] == Empty
    ensures MarkBomb(g, b, false)[b.pos.r + 1][b.pos.c] == Blast
  {
    assert Ray(g, b.pos, DownRay, 0, b.strength, true) == g;
    assert Step(b.pos, DownRay, 1) == Pos(b.pos.r + 1, b.pos.c);
    MarkBombFlames(g, b, DownRay, 1);
  }

  /** The number of cells in the radius-2 diamond around p that are on the
      board and still empty. The source walks the 5x5 window around p. */
  function WindowCell(p: Pos, i: int, j: int): Pos {
    Pos(p.r + i - 2, p.c + j - 2)
  }

  predicate SafeCell(p: Pos, g: Marks, q: Pos)
    requires IsBoard(g)
  {
    OnBoard(q) && Distance(q, p) <= 2 && g[q.r][q.c] == Empty
  }

  function Ind(b: bool): nat {
    if b then 1 else 0
  }

  /** Safe cells in window row i, columns 0 .. j - 1. */
  function SafeInRow(p: Pos, g: Marks, i: int, j: nat): nat
    requires IsBoard(g) && j <= 5
  {
    if j == 0 then 0
    else SafeInRow(p, g, i, j - 1) + Ind(SafeCell(p, g, WindowCell(p, i, j - 1)))
  }

  /** Safe cells in window rows 0 .. i - 1. */
  function SafeInWindow(p: Pos, g: Marks, i: nat): nat
    requires IsBoard(g) && i <= 5
  {
    if i == 0 then 0
    else SafeInWindow(p, g, i - 1) + SafeInRow(p, g, i - 1, 5)
  }

  function SafeCount(p: Pos, g: Marks): nat
    requires IsBoard(g)
  {
    SafeInWindow(p, g, 5)
  }

  /** Fewer empty cells never give a larger count. */
  lemma {:induction false} SafeInRowMonotone(p: Pos, g: Marks, h: Marks, i: int, j: nat)
    requires IsBoard(g) && IsBoard(h) && j <= 5
    requires forall r, c | 0 <= r < Size && 0 <= c < Size :: h[r][c] == Empty ==> g[r][c] == Empty
    ensures SafeInRow(p, h, i, j) <= SafeInRow(p, g, i, j)
  {
    if j > 0 {
      SafeInRowMonotone(p, g, h, i, j - 1);
    }
  }

  lemma {:induction false} SafeCountMonotone(p: Pos, g: Marks, h: Marks, i: nat)
    requires IsBoard(g) && IsBoard(h) && i <= 5
    requires forall r, c | 0 <= r < Size && 0 <= c < Size :: h[r][c] == Empty ==> g[r][c] == Empty
    ensures SafeInWindow(p, h, i) <= SafeInWindow(p, g, i)
  {
    if i > 0 {
      SafeCountMonotone(p, g, h, i - 1);
      SafeInRowMonotone(p, g, h, i - 1, 5);
    }
  }

  /** A board with every cell empty. */
  const AllEmpty: Marks := seq(Size, r => seq(Size, c => Empty))

  lemma SafeInRowUnfolded(p: Pos, g: Marks, i: int)
    requires IsBoard(g)
    ensures SafeInRow(p, g, i, 5)
      == Ind(SafeCell(p, g, WindowCell(p, i, 0))) + Ind(SafeCell(p, g, WindowCell(p, i, 1)))
       + Ind(SafeCell(p, g, WindowCell(p, i, 2))) + Ind(SafeCell(p, g, WindowCell(p, i, 3)))
       + Ind(SafeCell(p, g, WindowCell(p, i, 4)))
  {
    assert SafeInRow(p, g, i, 1) == Ind(SafeCell(p, g, WindowCell(p, i, 0)));
    assert SafeInRow(p, g, i, 2) == SafeInRow(p, g, i, 1) + Ind(SafeCell(p, g, WindowCell(p, i, 1)));
    assert SafeInRow(p, g, i, 3) == SafeInRow(p, g, i, 2) + Ind(SafeCell(p, g, WindowCell(p, i, 2)));
    assert SafeInRow(p, g, i, 4) == SafeInRow(p, g, i, 3) + Ind(SafeCell(p, g, WindowCell(p, i, 3)));
  }

  /** On-board columns among c - k .. c + k, for k <= 2. */
  function ColumnsOnBoard(c: int, k: int): nat {
    if k == 0 then 1
    else if k == 1 then 1 + Ind(c >= 1) + Ind(c <= Size - 2)
    else 1 + Ind(c >= 1) + Ind(c >= 2) + Ind(c <= Size - 2) + Ind(c <= Size - 3)
  }

  lemma DiamondRow(p: Pos, i: int)
    requires OnBoard(p) && 0 <= i < 5
    ensures SafeInRow(p, AllEmpty, i, 5)
      == if 0 <= p.r + i - 2 < Size then ColumnsOnBoard(p.c, 2 - Abs(i - 2)) else 0
  {
    SafeInRowUnfolded(p, AllEmpty, i);
    forall j | 0 <= j < 5
      ensures SafeCell(p, AllEmpty, WindowCell(p, i, j))
          <==> OnBoard(WindowCell(p, i, j)) && Abs(i - 2) + Abs(j - 2) <= 2
    {
      var q := WindowCell(p, i, j);
      if OnBoard(q) {
        assert AllEmpty[q.r][q.c] == Empty;
      }
    }
  }

  /** The edge table is the sum, row by row, of the diamond's on-board cells. */
  lemma DiamondTable(p: Pos)
    requires OnBoard(p)
    ensures (if p.r >= 2 then 1 else 0)
          + (if p.r >= 1 then ColumnsOnBoard(p.c, 1) else 0)
          + ColumnsOnBoard(p.c, 2)
          + (if p.r <= Size - 2 then ColumnsOnBoard(p.c, 1) else 0)
          + (if p.r <= Size - 3 then 1 else 0)
         == FillArea(p)
  {
    if p.c == 0 || p.c == Size - 1 {
      assert ColumnsOnBoard(p.c, 1) == 2 && ColumnsOnBoard(p.c, 2) == 3;
    } else if p.c == 1 || p.c == Size - 2 {
      assert ColumnsOnBoard(p.c, 1) == 3 && ColumnsOnBoard(p.c, 2) == 4;
    } else {
      assert ColumnsOnBoard(p.c, 1) == 3 && ColumnsOnBoard(p.c, 2) == 5;
    }
  }

  /** A window count is the sum of its five rows. */
  lemma WindowRows(p: Pos, g: Marks)
    requires IsBoard(g)
    ensures SafeCount(p, g) == SafeInRow(p, g, 0, 5) + SafeInRow(p, g, 1, 5) + SafeInRow(p, g, 2, 5)
                             + SafeInRow(p, g, 3, 5) + SafeInRow(p, g, 4, 5)
  {
    assert SafeInWindow(p, g, 1) == SafeInRow(p, g, 0, 5);
    assert SafeInWindow(p, g, 2) == SafeInWindow(p, g, 1) + SafeInRow(p, g, 1, 5);
    assert SafeInWindow(p, g, 3) == SafeInWindow(p, g, 2) + SafeInRow(p, g, 2, 5);
    assert SafeInWindow(p, g, 4) == SafeInWindow(p, g, 3) + SafeInRow(p, g, 3, 5);
  }

  /** The edge table counts exactly the on-board cells within distance 2. */
  lemma FillAreaIsDiamond(p: Pos)
    requires OnBoard(p)
    ensures SafeCount(p, AllEmpty) == FillArea(p)
  {
    WindowRows(p, AllEmpty);
    DiamondRow(p, 0);
    DiamondRow(p, 1);
    DiamondRow(p, 2);
    DiamondRow(p, 3);
    DiamondRow(p, 4);
    DiamondTable(p);
  }

  /** Any marking leaves at most the fill area of p empty and safe. */
  lemma SafeCountAtMostFill(p: Pos, g: Marks)
    requires IsBoard(g) && OnBoard(p)
    ensures SafeCount(p, g) <= FillArea(p)
  {
    SafeCountMonotone(p, AllEmpty, g, 5);
    FillAreaIsDiamond(p);
  }

  /** The count of one window row, column by column. */
  method CountRow(p: Pos, board: Marks, i: int) returns (n: nat)
    requires IsBoard(board)
    ensures n == SafeInRow(p, board, i, 5)
  {
    n := 0;
    for j := 0 to 5
      invariant n == SafeInRow(p, board, i, j)
    {
      var newR := p.r + i - 2;
      var newC := p.c + j - 2;
      if newR >= 0 && newR < Size && newC >= 0 && newC < Size && Distance(Pos(newR, newC), p) <= 2 {
        if board[newR][newC] == Empty {
          n := n + 1;
        }
      }
    }
  }

  /** The count of the 5x5 window around p, row by row. */
  method CountWindow(p: Pos, board: Marks) returns (n: nat)
    requires IsBoard(board)
    ensures n == SafeCount(p, board)
  {
    n := 0;
    for i := 0 to 5
      invariant n == SafeInWindow(p, board, i)
    {
      var row := CountRow(p, board, i);
      n := n + row;
    }
  }

  /** The source's count over the 5x5 window around p of cells that are on
      the board, within distance 2 and left empty by its blast marking. It
      is never below the count over the corrected marking. */
  method EmptySafeArea(p: Pos, o: Observation) returns (n: nat)
    requires o.Valid()
    ensures n == SafeCount(p, SourceMarks(o))
    ensures SafeCount(p, BlastMarks(o)) <= n <= SafeCount(p, InitialMarks(o))
    ensures OnBoard(p) ==> n <= FillArea(p)
  {
    var board := SourceMarks(o);
    n := CountWindow(p, board);
    SafeCountMonotone(p, InitialMarks(o), board, 5);
    SourceMarksWithinCorrected(o);
    SafeCountMonotone(p, board, BlastMarks(o), 5);
    if OnBoard(p) {
      SafeCountAtMostFill(p, board);
    }
  }

  /** The same count over the corrected blast marking. */
  method CorrectedEmptySafeArea(p: Pos, o: Observation) returns (n: nat)
    requires o.Valid()
    ensures n == SafeCount(p, BlastMarks(o))
    ensures n <= SafeCount(p, SourceMarks(o))
    ensures OnBoard(p) ==> n <= FillArea(p)
  {
    var board := BlastMarks(o);
    n := CountWindow(p, board);
    SourceMarksWithinCorrected(o);
    SafeCountMonotone(p, SourceMarks(o), board, 5);
    if OnBoard(p) {
      SafeCountAtMostFill(p, board);
    }
  }

  /* ---------------------------------------------------------------------
     Attack score, mode and dispatch
     --------------------------------------------------------------------- */

  /** 100 * (1 - empty / fill): the share of the fill area a bomb would
      take away from the safe area, as a percentage. */
  function AttackRatio(empty: int, fill: int): real
    requires fill > 0
  {
    100.0 * (1.0 - empty as real / fill as real)
  }

  /** The ratio stays within 0..100, reaches 100 exactly when nothing is
      left safe, and 0 exactly when everything is. */
  lemma AttackRatioBounds(empty: int, fill: int)
    requires 0 <= empty <= fill && fill > 0
    ensures 0.0 <= AttackRatio(empty, fill) <= 100.0
    ensures AttackRatio(empty, fill) == 100.0 <==> empty == 0
    ensures AttackRatio(empty, fill) == 0.0 <==> empty == fill
  {
    var e := empty as real;
    var f := fill as real;
    assert 0.0 <= e / f <= 1.0 by {
      assert e <= f;
    }
    if AttackRatio(empty, fill) == 0.0 {
      assert e / f == 1.0;
      assert e == f;
    }
  }

  /** A smaller safe area means a higher attack score. */
  lemma AttackRatioDecreasing(e1: int, e2: int, fill: int)
    requires e1 < e2 && fill > 0
    ensures AttackRatio(e2, fill) < AttackRatio(e1, fill)
  {
    assert e1 as real / fill as real < e2 as real / fill as real;
  }

  /** The attack score of a bomb dropped at p, as the source computes it;
      it never exceeds the score under the corrected marking. */
  method AttackScore(p: Pos, o: Observation) returns (score: real)
    requires o.Valid() && OnBoard(p)
    ensures 0.0 <= score <= 100.0
    ensures score == AttackRatio(SafeCount(p, SourceMarks(o)), FillArea(p))
    ensures score <= AttackRatio(SafeCount(p, BlastMarks(o)), FillArea(p))
  {
    var fillArea := FillArea(p);
    var emptySafeArea := EmptySafeArea(p, o);
    score := 100.0 * (1.0 - emptySafeArea as real / fillArea as real);
    assert score == AttackRatio(emptySafeArea, fillArea);
    AttackRatioBounds(emptySafeArea, fillArea);
    SourceScoreWithinCorrected(p, o);
  }

  /** The attack score under the corrected blast marking. */
  method CorrectedAttackScore(p: Pos, o: Observation) returns (score: real)
    requires o.Valid() && OnBoard(p)
    ensures 0.0 <= score <= 100.0
    ensures score == AttackRatio(SafeCount(p, BlastMarks(o)), FillArea(p))
    ensures AttackRatio(SafeCount(p, SourceMarks(o)), FillArea(p)) <= score
  {
    var fillArea := FillArea(p);
    var emptySafeArea := CorrectedEmptySafeArea(p, o);
    score := 100.0 * (1.0 - emptySafeArea as real / fillArea as real);
    assert score == AttackRatio(emptySafeArea, fillArea);
    AttackRatioBounds(emptySafeArea, fillArea);
    SourceScoreWithinCorrected(p, o);
  }

  /** The score as written never exceeds the score under the corrected
      marking. */
  lemma SourceScoreWithinCorrected(p: Pos, o: Observation)
    requires o.Valid() && OnBoard(p)
    ensures AttackRatio(SafeCount(p, SourceMarks(o)), FillArea(p)) <= AttackRatio(SafeCount(p, BlastMarks(o)), FillArea(p))
  {
    var asWritten := SafeCount(p, SourceMarks(o));
    var corrected := SafeCount(p, BlastMarks(o));
    SourceMarksWithinCorrected(o);
    SafeCountMonotone(p, SourceMarks(o), BlastMarks(o), 5);
    if corrected < asWritten {
      AttackRatioDecreasing(corrected, asWritten, FillArea(p));
    }
  }

  /** The mode of an observation: Evade whenever the evade trigger fires,
      otherwise Attack when the attack condition (computed elsewhere) holds,
      otherwise Explore. */
  method DecideMode(o: Observation, attackCondition: bool) returns (m: Mode)
    requires o.Valid()
    ensures var bombs := ConvertBombs(o.bombBlastStrength);
      && (m == Evade <==> EvadeTrigger(o.position, bombs, o.bombLife))
      && (m == Attack <==> !EvadeTrigger(o.position, bombs, o.bombLife) && attackCondition)
      && (m == Explore <==> !EvadeTrigger(o.position, bombs, o.bombLife) && !attackCondition)
  {
    var bombs := ConvertBombs(o.bombBlastStrength);
    var evade := EvadeCondition(o.position, bombs, o.bombLife);
    if evade {
      m := Evade;
    } else if attackCondition {
      m := Attack;
    } else {
      m := Explore;
    }
  }

  /** The reward of an observation under a mode: the evade score in Evade,
      the attack score at the agent's own cell in Attack, none in Explore. */
  method Score(o: Observation, m: Mode) returns (r: Option<real>)
    requires o.Valid()
    ensures r.None? <==> m == Explore
    ensures m == Evade ==> r == Some(100.0 - BoardPenalty(o.position, o.bombBlastStrength, o.bombLife, Size))
    ensures m == Attack ==> (r.Some? && 0.0 <= r.value <= 100.0
      && r.value == AttackRatio(SafeCount(o.position, SourceMarks(o)), FillArea(o.position)))
  {
    match m
    case Evade =>
      var s := EvadeScore(o.position, o.bombBlastStrength, o.bombLife);
      r := Some(s);
    case Attack =>
      var s := AttackScore(o.position, o);
      r := Some(s);
    case Explore =>
      r := None;
  }
}

=== FILE: simulator.dfy ===
/** The simulation adapter's bookkeeping around the external forward model:
    who the agent is, the agents rebuilt from an observation, the joint
    actions to try for one own action, and the alive list of a simulated
    next observation. The forward model itself is not part of this model:
    its output is an argument. */
module Simulator {
  import opened Game

  /* ---------------------------------------------------------------------
     Who am I
     --------------------------------------------------------------------- */

  /** An agent id is taken when it is the teammate or one of the enemies. */
  predicate Taken(o: Observation, id: int) {
    id == o.teammate || id in o.enemies
  }

  function FirstFreeFrom(o: Observation, id: int): (r: Option<int>)
    requires FirstAgentId <= id <= LastAgentId + 1
    ensures r.Some? ==> (id <= r.value <= LastAgentId && !Taken(o, r.value)
      && forall k | id <= k < r.value :: Taken(o, k))
    ensures r.None? ==> forall k | id <= k <= LastAgentId :: Taken(o, k)
    decreases LastAgentId + 1 - id
  {
    if id > LastAgentId then None
    else if !Taken(o, id) then Some(id)
    else FirstFreeFrom(o, id + 1)
  }

  /** The agent's own id: the first of 10..13 that is neither the teammate
      nor an enemy. When every id is taken the source falls through with no
      value. */
  function MyselfIdx(o: Observation): (r: Option<int>)
    ensures r.Some? ==> (FirstAgentId <= r.value <= LastAgentId && !Taken(o, r.value)
      && forall k | FirstAgentId <= k < r.value :: Taken(o, k))
    ensures r.None? <==> forall k | FirstAgentId <= k <= LastAgentId :: Taken(o, k)
  {
    FirstFreeFrom(o, FirstAgentId)
  }

  /* ---------------------------------------------------------------------
     Agents rebuilt from the observation
     --------------------------------------------------------------------- */

  /** The first cell in row-major order, from index k on, holding v. */
  function FindFrom(board: Grid, v: int, k: nat): (r: Option<Pos>)
    requires IsBoard(board) && k <= Size * Size
    ensures r.Some? ==> OnBoard(r.value) && k <= CellIndex(r.value)
    decreases Size * Size - k
  {
    if k == Size * Size then None
    else if At(board, CellAt(k)) == v then Some(CellAt(k))
    else FindFrom(board, v, k + 1)
  }

  /** The search from k finds the first cell from k on holding v, or none
      exactly when no such cell exists. */
  lemma {:induction false} FindFromSpec(board: Grid, v: int, k: nat)
    requires IsBoard(board) && k <= Size * Size
    ensures var r := FindFrom(board, v, k);
      r.Some? ==> (At(board, r.value) == v
        && forall q | OnBoard(q) && k <= CellIndex(q) < CellIndex(r.value) :: At(board, q) != v)
    ensures FindFrom(board, v, k).None? ==> forall q | OnBoard(q) && k <= CellIndex(q) :: At(board, q) != v
    decreases Size * Size - k
  {
    if k < Size * Size && At(board, CellAt(k)) != v {
      FindFromSpec(board, v, k + 1);
      forall q | OnBoard(q) && CellIndex(q) == k ensures q == CellAt(k) {
        CellIndexInjective(q, CellAt(k));
      }
    }
  }

  /** The first cell in row-major order holding v, as numpy's argwhere finds it. */
  function Find(board: Grid, v: int): (r: Option<Pos>)
    requires IsBoard(board)
    ensures r.Some? ==> OnBoard(r.value)
  {
    FindFrom(board, v, 0)
  }

  lemma FindSpec(board: Grid, v: int)
    requires IsBoard(board)
    ensures var r := Find(board, v);
      r.Some? ==> (At(board, r.value) == v
        && forall q | OnBoard(q) && CellIndex(q) < CellIndex(r.value) :: At(board, q) != v)
    ensures Find(board, v).None? <==> forall q | OnBoard(q) :: At(board, q) != v
  {
    FindFromSpec(board, v, 0);
  }

  /** An agent as the simulator rebuilds it; id is 0..3, board value id + 10. */
  datatype Agent = Agent(id: int, position: Pos, isAlive: bool, blastStrength: int, canKick: bool, ammo: int)

  /** The stats a freshly constructed engine agent starts with. */
  datatype Stats = Stats(blastStrength: int, canKick: bool, ammo: int)

  /** Where an unseen agent is put: its spawn corner. */
  const DefaultPositions: seq<Pos> := [Pos(1, 1), Pos(9, 1), Pos(9, 9), Pos(1, 9)]

  /** What a visible opponent is assumed to have: the worst case. */
  const EnemyBlastStrength: int := 7
  const EnemyAmmo: int := 10

  /** One agent rebuilt from the observation. An agent absent from the board
      is dead at its spawn corner with spawn stats; the agent itself keeps
      its observed stats; every other visible agent gets the worst case. */
  function GetAgent(o: Observation, myself: Option<int>, spawn: Stats, agentId: int): (a: Agent)
    requires o.Valid() && FirstAgentId <= agentId <= LastAgentId
    ensures a.id == agentId - FirstAgentId
  {
    var found := Find(o.board, agentId);
    match found
    case None =>
      Agent(agentId - FirstAgentId, DefaultPositions[agentId - FirstAgentId], false, spawn.blastStrength, spawn.canKick, spawn.ammo)
    case Some(pos) =>
      if myself == Some(agentId) then
        Agent(agentId - FirstAgentId, pos, true, o.blastStrength, o.canKick, o.ammo)
      else
        Agent(agentId - FirstAgentId, pos, true, EnemyBlastStrength, spawn.canKick, EnemyAmmo)
  }

  /** What the source promises of a rebuilt agent: alive exactly when its
      id is on the board; a dead agent at its spawn corner with spawn stats;
      a live one at a cell holding its id, with its own observed stats when
      it is the agent itself and the worst case otherwise. */
  ghost predicate RebuiltFrom(o: Observation, myself: Option<int>, spawn: Stats, agentId: int, a: Agent)
    requires o.Valid() && FirstAgentId <= agentId <= LastAgentId
  {
    && a.id == agentId - FirstAgentId
    && (a.isAlive <==> exists q | OnBoard(q) :: At(o.board, q) == agentId)
    && (!a.isAlive ==>
          a.position == DefaultPositions[agentId - FirstAgentId]
          && a.blastStrength == spawn.blastStrength && a.canKick == spawn.canKick && a.ammo == spawn.ammo)
    && (a.isAlive ==> OnBoard(a.position) && At(o.board, a.position) == agentId)
    && (a.isAlive && myself == Some(agentId) ==>
          a.blastStrength == o.blastStrength && a.canKick == o.canKick && a.ammo == o.ammo)
    && (a.isAlive && myself != Some(agentId) ==>
          a.blastStrength == EnemyBlastStrength && a.ammo == EnemyAmmo && a.canKick == spawn.canKick)
  }

  lemma GetAgentSpec(o: Observation, myself: Option<int>, spawn: Stats, agentId: int)
    requires o.Valid() && FirstAgentId <= agentId <= LastAgentId
    ensures RebuiltFrom(o, myself, spawn, agentId, GetAgent(o, myself, spawn, agentId))
  {
    FindSpec(o.board, agentId);
  }

  /** The four agents 10..13, in id order. */
  function GetAgents(o: Observation, myself: Option<int>, spawn: Stats): (agents: seq<Agent>)
    requires o.Valid()
    ensures |agents| == 4
    ensures forall i | 0 <= i < 4 :: agents[i] == GetAgent(o, myself, spawn, i + FirstAgentId)
  {
    seq(4, i requires 0 <= i < 4 => GetAgent(o, myself, spawn, i + FirstAgentId))
  }

  /** Each of the four agents is rebuilt from the observation: alive exactly
      when its id is on the board, and with the stats its role gives it. */
  lemma GetAgentsRebuilt(o: Observation, myself: Option<int>, spawn: Stats)
    requires o.Valid()
    ensures forall i | 0 <= i < 4 :: RebuiltFrom(o, myself, spawn, i + FirstAgentId, GetAgents(o, myself, spawn)[i])
  {
    var agents := GetAgents(o, myself, spawn);
    forall i | 0 <= i < 4
      ensures RebuiltFrom(o, myself, spawn, i + FirstAgentId, agents[i])
    {
      GetAgentSpec(o, myself, spawn, i + FirstAgentId);
    }
  }

  /** The board ids of the living agents, in list order. */
  function AliveIds(agents: seq<Agent>): (ids: seq<int>)
    ensures |ids| <= |agents|
  {
    if agents == [] then []
    else (if agents[0].isAlive then [agents[0].id + FirstAgentId] else []) + AliveIds(agents[1..])
  }

  /** An alive list as the simulator builds it: agent ids in increasing order. */
  predicate WellFormedAlive(alive: seq<int>) {
    && (forall i | 0 <= i < |alive| :: FirstAgentId <= alive[i] <= LastAgentId)
    && (forall i, j | 0 <= i < j < |alive| :: alive[i] < alive[j])
  }

  /** The adapter's state for one observation. */
  datatype Simulator = Simulator(obs: Observation, myself: Option<int>, agents: seq<Agent>, observedAlive: seq<int>)

  function NewSimulator(o: Observation, spawn: Stats): (sim: Simulator)
    requires o.Valid()
    ensures sim.obs == o && sim.myself == MyselfIdx(o)
    ensures sim.agents == GetAgents(o, MyselfIdx(o), spawn)
    ensures sim.observedAlive == AliveIds(sim.agents)
  {
    var myself := MyselfIdx(o);
    var agents := GetAgents(o, myself, spawn);
    Simulator(o, myself, agents, AliveIds(agents))
  }

  /** An id is listed exactly when some living agent carries it. */
  lemma {:induction false} AliveIdsMembers(agents: seq<Agent>, x: int)
    ensures x in AliveIds(agents)
        <==> exists i | 0 <= i < |agents| :: agents[i].isAlive && x == agents[i].id + FirstAgentId
  {
    if agents != [] {
      AliveIdsMembers(agents[1..], x);
      var head := if agents[0].isAlive then [agents[0].id + FirstAgentId] else [];
      assert AliveIds(agents) == head + AliveIds(agents[1..]);
      if exists i | 0 <= i < |agents| :: agents[i].isAlive && x == agents[i].id + FirstAgentId {
        var i :| 0 <= i < |agents| && agents[i].isAlive && x == agents[i].id + FirstAgentId;
        if i > 0 {
          assert agents[1..][i - 1] == agents[i];
        }
      }
      if x in AliveIds(agents[1..]) {
        var i :| 0 <= i < |agents[1..]| && agents[1..][i].isAlive && x == agents[1..][i].id + FirstAgentId;
        assert agents[i + 1] == agents[1..][i];
      }
    }
  }

  /** Agents listed in increasing id order give an increasing alive list. */
  lemma {:induction false} AliveIdsIncreasing(agents: seq<Agent>)
    requires forall i | 0 <= i < |agents| :: 0 <= agents[i].id < 4
    requires forall i, j | 0 <= i < j < |agents| :: agents[i].id < agents[j].id
    ensures WellFormedAlive(AliveIds(agents))
  {
    if agents != [] {
      var tail := agents[1..];
      AliveIdsIncreasing(tail);
      var rest := AliveIds(tail);
      if agents[0].isAlive {
        AliveIdsAbove(tail, agents[0].id);
        assert AliveIds(agents) == [agents[0].id + FirstAgentId] + rest;
        ConsWellFormed(agents[0].id + FirstAgentId, rest);
      } else {
        assert AliveIds(agents) == rest;
      }
    }
  }

  /** Agents all above lo give ids all above lo's id. */
  lemma AliveIdsAbove(agents: seq<Agent>, lo: int)
    requires forall i | 0 <= i < |agents| :: lo < agents[i].id
    ensures forall k | 0 <= k < |AliveIds(agents)| :: lo + FirstAgentId < AliveIds(agents)[k]
  {
    var ids := AliveIds(agents);
    forall k | 0 <= k < |ids| ensures lo + FirstAgentId < ids[k] {
      AliveIdsMembers(agents, ids[k]);
    }
  }

  lemma ConsWellFormed(x: int, rest: seq<int>)
    requires WellFormedAlive(rest) && FirstAgentId <= x <= LastAgentId
    requires forall k | 0 <= k < |rest| :: x < rest[k]
    ensures WellFormedAlive([x] + rest)
  {
    var ids := [x] + rest;
    forall i | 0 <= i < |ids| ensures FirstAgentId <= ids[i] <= LastAgentId {
      if i > 0 {
        assert ids[i] == rest[i - 1];
      }
    }
    forall i, j | 0 <= i < j < |ids| ensures ids[i] < ids[j] {
      assert ids[j] == rest[j - 1];
      if i > 0 {
        assert ids[i] == rest[i - 1];
      }
    }
  }

  /** The observed-alive list holds exactly the agent ids present on the
      board, in increasing order. */
  lemma ObservedAliveIsOnBoard(o: Observation, spawn: Stats, x: int)
    requires o.Valid()
    ensures WellFormedAlive(NewSimulator(o, spawn).observedAlive)
    ensures x in NewSimulator(o, spawn).observedAlive
        <==> FirstAgentId <= x <= LastAgentId && exists q | OnBoard(q) :: At(o.board, q) == x
  {
    var agents := GetAgents(o, MyselfIdx(o), spawn);
    assert forall i | 0 <= i < 4 :: agents[i].id == i;
    AliveIdsIncreasing(agents);
    AliveAgentOnBoard(o, MyselfIdx(o), spawn, x);
  }

  lemma AliveAgentOnBoard(o: Observation, myself: Option<int>, spawn: Stats, x: int)
    requires o.Valid()
    ensures x in AliveIds(GetAgents(o, myself, spawn))
        <==> FirstAgentId <= x <= LastAgentId && exists q | OnBoard(q) :: At(o.board, q) == x
  {
    var agents := GetAgents(o, myself, spawn);
    AliveIdsMembers(agents, x);
    if FirstAgentId <= x <= LastAgentId {
      GetAgentSpec(o, myself, spawn, x);
      assert agents[x - FirstAgentId] == GetAgent(o, myself, spawn, x);
    }
  }

  /* ---------------------------------------------------------------------
     Counting: 6^n, and joint-action tuples as base-6 numerals
     --------------------------------------------------------------------- */

  function Pow6(n: nat): (p: nat)
    ensures p >= 1
  {
    if n == 0 then 1 else 6 * Pow6(n - 1)
  }

  /** The number of next observations one node may draw: 6 per
      observed-alive agent, the agent itself included. */
  function NumOfNextObs(sim: Simulator): nat {
    Pow6(|sim.observedAlive|)
  }

  predicate IsDigits(t: seq<int>) {
    forall i | 0 <= i < |t| :: 0 <= t[i] < 6
  }

  /** The k base-6 digits of v, most significant first: the v-th tuple of
      itertools.product(range(6), repeat=k). */
  function Digits(v: nat, k: nat): (t: seq<int>)
    ensures |t| == k && IsDigits(t)
  {
    if k == 0 then [] else Digits(v / 6, k - 1) + [v % 6]
  }

  /** The number whose base-6 digits, most significant first, are t. */
  function Value(t: seq<int>): int {
    if t == [] then 0 else 6 * Value(t[..|t| - 1]) + t[|t| - 1]
  }

  lemma {:induction false} ValueOfDigits(v: nat, k: nat)
    requires v < Pow6(k)
    ensures Value(Digits(v, k)) == v
  {
    if k > 0 {
      var t := Digits(v, k);
      assert t[..k - 1] == Digits(v / 6, k - 1);
      ValueOfDigits(v / 6, k - 1);
    }
  }

  lemma {:induction false} DigitsOfValue(t: seq<int>)
    requires IsDigits(t)
    ensures 0 <= Value(t) < Pow6(|t|)
    ensures Digits(Value(t), |t|) == t
  {
    if t != [] {
      var k := |t|;
      var init := t[..k - 1];
      DigitsOfValue(init);
      var v := Value(t);
      assert v == 6 * Value(init) + t[k - 1];
      assert v / 6 == Value(init);
      assert v % 6 == t[k - 1];
      assert t == init + [t[k - 1]];
    }
  }

  /** Two numbers below 6^k have the same digits only when they are equal. */
  lemma DigitsInjective(v: nat, w: nat, k: nat)
    requires v < Pow6(k) && w < Pow6(k) && Digits(v, k) == Digits(w, k)
    ensures v == w
  {
    ValueOfDigits(v, k);
    ValueOfDigits(w, k);
  }

  /* ---------------------------------------------------------------------
     Joint actions for one own action
     --------------------------------------------------------------------- */

  /** The action slots (0..3) of the other observed-alive agents. */
  function OtherSlots(alive: seq<int>, myself: Option<int>): (slots: seq<int>)
    ensures |slots| <= |alive|
  {
    if alive == [] then []
    else (if myself != Some(alive[0]) then [alive[0] - FirstAgentId] else []) + OtherSlots(alive[1..], myself)
  }

  /** A slot is listed exactly when its agent is alive and is not the agent itself. */
  lemma {:induction false} OtherSlotsMembers(alive: seq<int>, myself: Option<int>, s: int)
    ensures s in OtherSlots(alive, myself) <==> s + FirstAgentId in alive && myself != Some(s + FirstAgentId)
  {
    if alive != [] {
      OtherSlotsMembers(alive[1..], myself, s);
      assert alive == [alive[0]] + alive[1..];
    }
  }

  /** The other agents' slots are distinct slots 0..3, in increasing order. */
  predicate SlotList(slots: seq<int>) {
    && (forall i | 0 <= i < |slots| :: 0 <= slots[i] < 4)
    && (forall i, j | 0 <= i < j < |slots| :: slots[i] < slots[j])
  }

  lemma {:induction false} OtherSlotsDistinct(alive: seq<int>, myself: Option<int>)
    requires WellFormedAlive(alive)
    ensures SlotList(OtherSlots(alive, myself))
  {
    if alive != [] {
      OtherSlotsDistinct(alive[1..], myself);
      var rest := OtherSlots(alive[1..], myself);
      if myself != Some(alive[0]) {
        assert OtherSlots(alive, myself) == [alive[0] - FirstAgentId] + rest;
        OtherSlotsAbove(alive, myself);
        ConsSlotList(alive[0] - FirstAgentId, rest);
      } else {
        assert OtherSlots(alive, myself) == rest;
      }
    }
  }

  /** The slots after the head of a well-formed alive list all lie above the head's. */
  lemma OtherSlotsAbove(alive: seq<int>, myself: Option<int>)
    requires WellFormedAlive(alive) && alive != []
    ensures forall j | 0 <= j < |OtherSlots(alive[1..], myself)| ::
      alive[0] - FirstAgentId < OtherSlots(alive[1..], myself)[j]
  {
    var rest := OtherSlots(alive[1..], myself);
    forall j | 0 <= j < |rest| ensures alive[0] - FirstAgentId < rest[j] {
      OtherSlotsMembers(alive[1..], myself, rest[j]);
      var i :| 0 <= i < |alive[1..]| && alive[1..][i] == rest[j] + FirstAgentId;
      assert alive[i + 1] == alive[1..][i];
    }
  }

  lemma ConsSlotList(x: int, rest: seq<int>)
    requires SlotList(rest) && 0 <= x < 4
    requires forall j | 0 <= j < |rest| :: x < rest[j]
    ensures SlotList([x] + rest)
  {
    var slots := [x] + rest;
    forall i | 0 <= i < |slots| ensures 0 <= slots[i] < 4 {
      if i > 0 {
        assert slots[i] == rest[i - 1];
      }
    }
    forall i, j | 0 <= i < j < |slots| ensures slots[i] < slots[j] {
      assert slots[j] == rest[j - 1];
      if i > 0 {
        assert slots[i] == rest[i - 1];
      }
    }
  }

  /** Without the agent itself among the alive ids every one is another agent's. */
  lemma {:induction false} OtherSlotsCount(alive: seq<int>, me: int)
    requires WellFormedAlive(alive)
    ensures |OtherSlots(alive, Some(me))| == if me in alive then |alive| - 1 else |alive|
  {
    if alive != [] {
      OtherSlotsCount(alive[1..], me);
      if alive[0] == me {
        assert me !in alive[1..];
      }
    }
  }

  /** The template's slots overwritten one by one with the drawn actions. */
  function Fill(template: seq<int>, slots: seq<int>, vals: seq<int>): (r: seq<int>)
    requires |slots| == |vals|
    requires forall i | 0 <= i < |slots| :: 0 <= slots[i] < |template|
    ensures |r| == |template|
    decreases |slots|
  {
    if slots == [] then template
    else Fill(template[slots[0] := vals[0]], slots[1..], vals[1..])
  }

  lemma {:induction false} FillAt(template: seq<int>, slots: seq<int>, vals: seq<int>)
    requires |slots| == |vals| && |template| == 4 && SlotList(slots)
    ensures forall m | 0 <= m < |slots| :: Fill(template, slots, vals)[slots[m]] == vals[m]
    ensures forall s | 0 <= s < 4 && s !in slots :: Fill(template, slots, vals)[s] == template[s]
    decreases |slots|
  {
    if slots != [] {
      var t' := template[slots[0] := vals[0]];
      FillAt(t', slots[1..], vals[1..]);
      forall m | 0 <= m < |slots|
        ensures Fill(template, slots, vals)[slots[m]] == vals[m]
      {
        if m > 0 {
          assert slots[m] == slots[1..][m - 1];
        } else {
          assert slots[0] !in slots[1..];
        }
      }
    }
  }

  /** Different drawn tuples give different joint actions. */
  lemma FillInjective(template: seq<int>, slots: seq<int>, t1: seq<int>, t2: seq<int>)
    requires |template| == 4 && SlotList(slots) && |t1| == |slots| && |t2| == |slots|
    requires Fill(template, slots, t1) == Fill(template, slots, t2)
    ensures t1 == t2
  {
    FillAt(template, slots, t1);
    FillAt(template, slots, t2);
    forall m | 0 <= m < |slots| ensures t1[m] == t2[m] {
      assert Fill(template, slots, t1)[slots[m]] == Fill(template, slots, t2)[slots[m]];
    }
  }

  /** The joint action with the agent's own action in its slot and zeros
      elsewhere. */
  function Template(me: int, own: Action): (t: seq<int>)
    requires FirstAgentId <= me <= LastAgentId
    ensures |t| == 4
    ensures forall s | 0 <= s < 4 :: t[s] == if s == me - FirstAgentId then own.Value() else 0
  {
    [0, 0, 0, 0][me - FirstAgentId := own.Value()]
  }

  /** An order permutes 0 .. n - 1: the shuffle the source applies. */
  predicate IsPermutation(order: seq<nat>, n: nat) {
    && |order| == n
    && (forall i | 0 <= i < |order| :: order[i] < n)
    && (forall i, j | 0 <= i < j < |order| :: order[i] != order[j])
    && (forall v | 0 <= v < n :: v in order)
  }

  /** A joint action the generator may yield: four slots, the own action in
      the agent's slot, 0..5 in every other observed-alive agent's slot, and
      Stop everywhere else. */
  predicate IsJointAction(me: int, alive: seq<int>, own: Action, ja: seq<int>)
    requires FirstAgentId <= me <= LastAgentId
  {
    && |ja| == 4
    && ja[me - FirstAgentId] == own.Value()
    && forall s | 0 <= s < 4 && s != me - FirstAgentId ::
         if s + FirstAgentId in alive then 0 <= ja[s] < 6 else ja[s] == 0
  }

  /** The joint actions tried for one own action: every tuple of
      product(range(6), k), k the number of other observed-alive agents,
      put into those agents' slots, in the shuffled order. */
  function JointActions(me: int, alive: seq<int>, own: Action, order: seq<nat>): (combos: seq<seq<int>>)
    requires FirstAgentId <= me <= LastAgentId && WellFormedAlive(alive)
    requires IsPermutation(order, Pow6(|OtherSlots(alive, Some(me))|))
    ensures |combos| == Pow6(|OtherSlots(alive, Some(me))|)
    ensures forall i | 0 <= i < |combos| :: IsJointAction(me, alive, own, combos[i])
    ensures forall i, j | 0 <= i < j < |combos| :: combos[i] != combos[j]
  {
    var slots := OtherSlots(alive, Some(me));
    var k := |slots|;
    OtherSlotsDistinct(alive, Some(me));
    var combos := seq(|order|, i requires 0 <= i < |order| => Fill(Template(me, own), slots, Digits(order[i], k)));
    assert forall i | 0 <= i < |combos| :: IsJointAction(me, alive, own, combos[i]) by {
      forall i | 0 <= i < |combos| ensures IsJointAction(me, alive, own, combos[i]) {
        FilledIsJointAction(me, alive, own, Digits(order[i], k));
      }
    }
    assert forall i, j | 0 <= i < j < |combos| :: combos[i] != combos[j] by {
      forall i, j | 0 <= i < j < |combos| ensures combos[i] != combos[j] {
        if combos[i] == combos[j] {
          FillInjective(Template(me, own), slots, Digits(order[i], k), Digits(order[j], k));
          DigitsInjective(order[i], order[j], k);
        }
      }
    }
    combos
  }

  /** Any drawn tuple of actions 0..5, put into the other agents' slots,
      gives a joint action of the right shape. */
  lemma FilledIsJointAction(me: int, alive: seq<int>, own: Action, t: seq<int>)
    requires FirstAgentId <= me <= LastAgentId && WellFormedAlive(alive)
    requires IsDigits(t) && |t| == |OtherSlots(alive, Some(me))|
    requires SlotList(OtherSlots(alive, Some(me)))
    ensures IsJointAction(me, alive, own, Fill(Template(me, own), OtherSlots(alive, Some(me)), t))
  {
    var slots := OtherSlots(alive, Some(me));
    OtherSlotsDistinct(alive, Some(me));
    FillAt(Template(me, own), slots, t);
    var ja := Fill(Template(me, own), slots, t);
    OtherSlotsMembers(alive, Some(me), me - FirstAgentId);
    forall s | 0 <= s < 4 && s != me - FirstAgentId
      ensures if s + FirstAgentId in alive then 0 <= ja[s] < 6 else ja[s] == 0
    {
      OtherSlotsMembers(alive, Some(me), s);
      if s + FirstAgentId in alive {
        assert s in slots;
        var m :| 0 <= m < |slots| && slots[m] == s;
      }
    }
  }

  /** The other agents' actions of a joint action, in slot order. */
  function Projection(ja: seq<int>, slots: seq<int>): (t: seq<int>)
    requires |ja| == 4 && SlotList(slots)
    ensures |t| == |slots|
    ensures forall m | 0 <= m < |slots| :: t[m] == ja[slots[m]]
  {
    seq(|slots|, m requires 0 <= m < |slots| => ja[slots[m]])
  }

  /** A filled template agrees with ja when the drawn values are ja's at
      the slots and the template is ja elsewhere. */
  lemma FillMatches(template: seq<int>, slots: seq<int>, t: seq<int>, ja: seq<int>)
    requires |template| == 4 && |ja| == 4 && SlotList(slots) && |t| == |slots|
    requires forall m | 0 <= m < |slots| :: t[m] == ja[slots[m]]
    requires forall s | 0 <= s < 4 && s !in slots :: template[s] == ja[s]
    ensures Fill(template, slots, t) == ja
  {
    var combo := Fill(template, slots, t);
    FillAt(template, slots, t);
    forall s | 0 <= s < 4 ensures combo[s] == ja[s] {
      if s in slots {
        var m :| 0 <= m < |slots| && slots[m] == s;
        assert combo[s] == t[m];
      }
    }
  }

  /** Filling the template with a joint action's own projection gives it back. */
  lemma FillProjection(me: int, alive: seq<int>, own: Action, ja: seq<int>)
    requires FirstAgentId <= me <= LastAgentId && WellFormedAlive(alive)
    requires IsJointAction(me, alive, own, ja)
    requires SlotList(OtherSlots(alive, Some(me)))
    ensures IsDigits(Projection(ja, OtherSlots(alive, Some(me))))
    ensures Fill(Template(me, own), OtherSlots(alive, Some(me)), Projection(ja, OtherSlots(alive, Some(me)))) == ja
  {
    var slots := OtherSlots(alive, Some(me));
    ProjectionDigits(me, alive, own, ja);
    TemplateOffSlots(me, alive, own, ja);
    FillMatches(Template(me, own), slots, Projection(ja, slots), ja);
  }

  lemma ProjectionDigits(me: int, alive: seq<int>, own: Action, ja: seq<int>)
    requires FirstAgentId <= me <= LastAgentId && IsJointAction(me, alive, own, ja)
    requires SlotList(OtherSlots(alive, Some(me)))
    ensures IsDigits(Projection(ja, OtherSlots(alive, Some(me))))
  {
    var slots := OtherSlots(alive, Some(me));
    var t := Projection(ja, slots);
    forall m | 0 <= m < |slots| ensures 0 <= t[m] < 6 {
      OtherSlotsMembers(alive, Some(me), slots[m]);
    }
  }

  lemma TemplateOffSlots(me: int, alive: seq<int>, own: Action, ja: seq<int>)
    requires FirstAgentId <= me <= LastAgentId && IsJointAction(me, alive, own, ja)
    ensures forall s | 0 <= s < 4 && s !in OtherSlots(alive, Some(me)) :: Template(me, own)[s] == ja[s]
  {
    var template := Template(me, own);
    forall s | 0 <= s < 4 && s !in OtherSlots(alive, Some(me)) ensures template[s] == ja[s] {
      OtherSlotsMembers(alive, Some(me), s);
    }
  }

  /** Every joint action of the right shape is yielded: the generator
      covers the whole product. */
  lemma JointActionsComplete(me: int, alive: seq<int>, own: Action, order: seq<nat>, ja: seq<int>)
    requires FirstAgentId <= me <= LastAgentId && WellFormedAlive(alive)
    requires IsPermutation(order, Pow6(|OtherSlots(alive, Some(me))|))
    requires IsJointAction(me, alive, own, ja)
    ensures ja in JointActions(me, alive, own, order)
  {
    var slots := OtherSlots(alive, Some(me));
    OtherSlotsDistinct(alive, Some(me));
    FillProjection(me, alive, own, ja);
    var t := Projection(ja, slots);
    DigitsOfValue(t);
    var v := Value(t);
    assert v in order;
    var i :| 0 <= i < |order| && order[i] == v;
    JointActionsAt(me, alive, own, order, i);
  }

  lemma JointActionsAt(me: int, alive: seq<int>, own: Action, order: seq<nat>, i: int)
    requires FirstAgentId <= me <= LastAgentId && WellFormedAlive(alive)
    requires IsPermutation(order, Pow6(|OtherSlots(alive, Some(me))|))
    requires 0 <= i < |order| && SlotList(OtherSlots(alive, Some(me)))
    ensures JointActions(me, alive, own, order)[i]
         == Fill(Template(me, own), OtherSlots(alive, Some(me)), Digits(order[i], |OtherSlots(alive, Some(me))|))
  {
  }

  /** The agent's six own actions together draw exactly NumOfNextObs joint
      actions when the agent itself is observed alive. */
  lemma DrawsMatchNumOfNextObs(me: int, alive: seq<int>)
    requires FirstAgentId <= me <= LastAgentId && WellFormedAlive(alive) && me in alive
    ensures 6 * Pow6(|OtherSlots(alive, Some(me))|) == Pow6(|alive|)
  {
    OtherSlotsCount(alive, me);
  }

  /** The generator of one simulator: no joint actions at all when the
      agent could not identify itself (the source raises there). */
  function ActionCombinations(sim: Simulator, own: Action, order: seq<nat>): (r: Option<seq<seq<int>>>)
    requires WellFormedAlive(sim.observedAlive)
    requires sim.myself.Some? ==> FirstAgentId <= sim.myself.value <= LastAgentId
    requires IsPermutation(order, Pow6(|OtherSlots(sim.observedAlive, sim.myself)|))
    ensures r.None? <==> sim.myself.None?
    ensures r.Some? ==> (|r.value| == Pow6(|OtherSlots(sim.observedAlive, sim.myself)|)
      && forall ja | ja in r.value :: IsJointAction(sim.myself.value, sim.observedAlive, own, ja))
  {
    match sim.myself
    case None => None
    case Some(me) => Some(JointActions(me, sim.observedAlive, own, order))
  }

  /* ---------------------------------------------------------------------
     The alive list of a simulated next observation
     --------------------------------------------------------------------- */

  /** The elements of xs that are not in drop, order kept. */
  function Without(xs: seq<int>, drop: seq<int>): (r: seq<int>)
    ensures IsSubsequence(r, xs)
    ensures forall x :: x in r <==> x in xs && x !in drop
  {
    if xs == [] then []
    else if xs[0] in drop then Without(xs[1..], drop)
    else [xs[0]] + Without(xs[1..], drop)
  }

  /** Agents alive before the step whose ids the simulated observation no
      longer lists as alive. */
  function Dead(observedAlive: seq<int>, simulatedAlive: seq<int>): (dead: seq<int>)
    ensures forall x :: x in dead <==> x in observedAlive && x !in simulatedAlive
  {
    if observedAlive == [] then []
    else
      var rest := Dead(observedAlive[1..], simulatedAlive);
      if observedAlive[0] !in simulatedAlive then [observedAlive[0]] + rest else rest
  }

  /** The alive list of the simulated observation: the original alive list
      when the simulation killed no one observed alive, otherwise the
      original alive list without the agents the simulation killed. */
  function ReconcileAlive(original: seq<int>, observedAlive: seq<int>, simulatedAlive: seq<int>): (r: seq<int>)
    ensures IsSubsequence(r, original)
    ensures forall x :: x in r <==> x in original && !(x in observedAlive && x !in simulatedAlive)
    ensures simulatedAlive == observedAlive ==> r == original
  {
    if simulatedAlive == observedAlive then
      SubsequenceReflexive(original);
      original
    else Without(original, Dead(observedAlive, simulatedAlive))
  }

  /** The list equality the source tests first is only a shortcut: the
      filtered list is the same whenever the simulation killed no one. */
  lemma {:induction false} WithoutNothing(xs: seq<int>, drop: seq<int>)
    requires forall i | 0 <= i < |xs| :: xs[i] !in drop
    ensures Without(xs, drop) == xs
  {
    if xs != [] {
      assert forall i | 0 <= i < |xs[1..]| :: xs[1..][i] == xs[i + 1];
      WithoutNothing(xs[1..], drop);
      calc {
        Without(xs, drop);
        [xs[0]] + Without(xs[1..], drop);
        [xs[0]] + xs[1..];
        xs;
      }
    }
  }

  lemma ReconcileAliveIsFilter(original: seq<int>, observedAlive: seq<int>, simulatedAlive: seq<int>)
    ensures ReconcileAlive(original, observedAlive, simulatedAlive)
         == Without(original, Dead(observedAlive, simulatedAlive))
  {
    if simulatedAlive == observedAlive {
      assert forall i | 0 <= i < |original| :: original[i] !in Dead(observedAlive, simulatedAlive);
      WithoutNothing(original, Dead(observedAlive, simulatedAlive));
    }
  }

  /** The searching agent's own observation out of the four the forward
      model produced, with its alive list reconciled; none when the agent
      could not identify itself (the source fails there). */
  function OwnObservation(sim: Simulator, simulated: seq<Observation>): (r: Option<Observation>)
    requires |simulated| == 4
    requires sim.myself.Some? ==> FirstAgentId <= sim.myself.value <= LastAgentId
    ensures r.None? <==> sim.myself.None?
    ensures r.Some? ==> var own := simulated[sim.myself.value - FirstAgentId];
      && r.value.board == own.board && r.value.bombBlastStrength == own.bombBlastStrength
      && r.value.bombLife == own.bombLife && r.value.position == own.position
      && r.value.ammo == own.ammo && r.value.blastStrength == own.blastStrength
      && r.value.canKick == own.canKick && r.value.enemies == own.enemies
      && r.value.teammate == own.teammate
      && IsSubsequence(r.value.alive, sim.obs.alive)
      && (forall x :: x in r.value.alive <==> x in sim.obs.alive && x !in Dead(sim.observedAlive, own.alive))
      && (own.alive == sim.observedAlive ==> r.value.alive == sim.obs.alive)
  {
    match sim.myself
    case None => None
    case Some(me) =>
      var own := simulated[me - FirstAgentId];
      Some(own.(alive := ReconcileAlive(sim.obs.alive, sim.observedAlive, own.alive)))
  }
}

=== FILE: team_agent.dfy ===
/** The reactive team agent's pure helpers: the direction filters, the
    "is it safe to bomb" test, the adjacency and nearest-object searches
    over the distance map of its bounded shortest-path search, the
    directions threatened by bombs, the escape choice when threatened, and
    the shaping of the final random-move candidates.

    The shortest-path search itself is not part of this model: its two
    outputs, the item lists and the distance map, are arguments, and every
    position it lists under an item has a distance (DistCovers). Board
    predicates the engine's utility module supplies (passability, fog, the
    stuck test of an escape route) are arguments as a Terrain. */
module TeamAgent {
  import opened Game

  /* ---------------------------------------------------------------------
     The shortest-path search's outputs
     --------------------------------------------------------------------- */

  /** A search distance: a number of steps, or infinity for a cell in range
      that the search never reached. */
  datatype Dist = Inf | Fin(steps: int)

  /** Item code to the positions holding that item, in discovery order. */
  type Items = map<int, seq<Pos>>

  type Dists = map<Pos, Dist>

  /** The positions listed under an item; none when the item is absent. */
  function Listed(items: Items, k: int): seq<Pos> {
    if k in items then items[k] else []
  }

  /** Every listed position has a distance, as the search guarantees. */
  predicate DistCovers(items: Items, dist: Dists) {
    forall k, q | k in items && q in items[k] :: q in dist
  }

  /** The distance of a cell, infinity for a cell the search left out. */
  function DistOf(dist: Dists, q: Pos): Dist {
    if q in dist then dist[q] else Inf
  }

  /** d <= radius, as Python compares an int or infinity with an int. */
  predicate WithinRadius(d: Dist, radius: int) {
    d.Fin? && d.steps <= radius
  }

  /** a <= b between two distances. */
  predicate NoFarther(a: Dist, b: Dist) {
    b.Inf? || (a.Fin? && a.steps <= b.steps)
  }

  /* ---------------------------------------------------------------------
     Filtering candidate directions
     --------------------------------------------------------------------- */

  /** Cell q lies in the blast line of bomb b: the same row or column, no
      farther than its blast strength. */
  predicate InBlastLine(q: Pos, b: BombInfo) {
    || (q.r == b.pos.r && Abs(b.pos.c - q.c) <= b.strength)
    || (q.c == b.pos.c && Abs(b.pos.r - q.r) <= b.strength)
  }

  predicate Endangered(q: Pos, bombs: seq<BombInfo>) {
    exists i | 0 <= i < |bombs| :: InBlastLine(q, bombs[i])
  }

  /** Moving in direction d from p does not step into any bomb's blast line. */
  predicate SafeMove(p: Pos, bombs: seq<BombInfo>, d: Action) {
    d != Bomb && !Endangered(NextPosition(p, d), bombs)
  }

  function SafeKeep(p: Pos, bombs: seq<BombInfo>): Action -> bool {
    d => SafeMove(p, bombs, d)
  }

  /** The directions whose next cell is outside every bomb's blast line,
      in their original order. */
  method FilterUnsafeDirections(p: Pos, directions: seq<Action>, bombs: seq<BombInfo>) returns (r: seq<Action>)
    requires forall i | 0 <= i < |directions| :: directions[i] != Bomb
    ensures r == Filter(directions, SafeKeep(p, bombs))
    ensures IsSubsequence(r, directions)
    ensures forall d :: d in r <==> d in directions && SafeMove(p, bombs, d)
  {
    r := [];
    for i := 0 to |directions|
      invariant r == Filter(directions[..i], SafeKeep(p, bombs))
    {
      var d := directions[i];
      var q := NextPosition(p, d);
      var isBad := false;
      var j := 0;
      while j < |bombs| && !isBad
        invariant 0 <= j <= |bombs|
        invariant isBad <==> exists k | 0 <= k < j :: InBlastLine(q, bombs[k])
      {
        if InBlastLine(q, bombs[j]) {
          isBad := true;
        }
        j := j + 1;
      }
      if !isBad {
        r := r + [d];
      }
      FilterAppend(directions[..i], d, SafeKeep(p, bombs));
      assert directions[..i + 1] == directions[..i] + [d];
    }
    assert directions[..|directions|] == directions;
    FilterSubsequence(directions, SafeKeep(p, bombs));
  }

  /** Moving in direction d from p does not return to a recently visited cell. */
  predicate Unvisited(p: Pos, recent: seq<Pos>, d: Action) {
    d != Bomb && NextPosition(p, d) !in recent
  }

  function UnvisitedKeep(p: Pos, recent: seq<Pos>): Action -> bool {
    d => Unvisited(p, recent, d)
  }

  /** The loop of the recently-visited filter: the directions whose next
      cell is not among the recent positions, in order. */
  method KeepUnvisited(directions: seq<Action>, p: Pos, recent: seq<Pos>) returns (ret: seq<Action>)
    requires forall i | 0 <= i < |directions| :: directions[i] != Bomb
    ensures ret == Filter(directions, UnvisitedKeep(p, recent))
  {
    ret := [];
    for i := 0 to |directions|
      invariant ret == Filter(directions[..i], UnvisitedKeep(p, recent))
    {
      var d := directions[i];
      if NextPosition(p, d) !in recent {
        ret := ret + [d];
      }
      FilterAppend(directions[..i], d, UnvisitedKeep(p, recent));
      assert directions[..i + 1] == directions[..i] + [d];
    }
    assert directions[..|directions|] == directions;
  }

  /** The directions leading to cells not visited recently; all of them
      when every one leads back. */
  method FilterRecentlyVisited(directions: seq<Action>, p: Pos, recent: seq<Pos>) returns (r: seq<Action>)
    requires forall i | 0 <= i < |directions| :: directions[i] != Bomb
    ensures r == (if Filter(directions, UnvisitedKeep(p, recent)) == [] then directions
                  else Filter(directions, UnvisitedKeep(p, recent)))
    ensures IsSubsequence(r, directions)
    ensures r == [] <==> directions == []
    ensures (exists d | d in directions :: Unvisited(p, recent, d))
        ==> forall d | d in r :: Unvisited(p, recent, d)
    ensures (forall d | d in directions :: !Unvisited(p, recent, d)) ==> r == directions
    ensures forall i | 0 <= i < |r| :: r[i] in directions
    ensures NoDuplicates(directions) ==> NoDuplicates(r)
  {
    var ret := KeepUnvisited(directions, p, recent);
    FilterSubsequence(directions, UnvisitedKeep(p, recent));
    if NoDuplicates(directions) {
      FilterNoDuplicates(directions, UnvisitedKeep(p, recent));
    }
    if ret == [] {
      r := directions;
      SubsequenceReflexive(directions);
    } else {
      r := ret;
    }
  }

  /* ---------------------------------------------------------------------
     Is it safe to lay a bomb
     --------------------------------------------------------------------- */

  /** A reachable passage from which the agent at p would escape its own
      bomb: farther than the blast strength, or off both of its blast lines. */
  predicate Refuge(q: Pos, p: Pos, blastStrength: int, dist: Dists) {
    match DistOf(dist, q)
    case Inf => false
    case Fin(n) => n > blastStrength || (q.r != p.r && q.c != p.c)
  }

  /** Whether to bomb now: never without ammo; otherwise exactly when some
      reachable passage is a refuge. The source aborts when the search
      listed no passage at all (it iterates over a missing entry). */
  method MaybeBomb(ammo: int, blastStrength: int, items: Items, dist: Dists, p: Pos) returns (r: Result<bool>)
    requires DistCovers(items, dist)
    ensures ammo < 1 ==> r == Success(false)
    ensures ammo >= 1 && Passage !in items ==> r == Failure
    ensures ammo >= 1 && Passage in items ==>
      r == Success(exists i | 0 <= i < |items[Passage]| :: Refuge(items[Passage][i], p, blastStrength, dist))
  {
    if ammo < 1 {
      return Success(false);
    }
    if Passage !in items {
      return Failure;
    }
    var passages := items[Passage];
    for i := 0 to |passages|
      invariant forall k | 0 <= k < i :: !Refuge(passages[k], p, blastStrength, dist)
    {
      var q := passages[i];
      assert q in items[Passage];
      var d := dist[q];
      if d.Inf? {
        continue;
      }
      if d.steps > blastStrength {
        return Success(true);
      }
      if q.r != p.r && q.c != p.c {
        return Success(true);
      }
    }
    return Success(false);
  }

  /* ---------------------------------------------------------------------
     Directions threatened by bombs
     --------------------------------------------------------------------- */

  /** The search reached bomb b within its blast strength. */
  predicate Reaches(dist: Dists, b: BombInfo) {
    WithinRadius(DistOf(dist, b.pos), b.strength)
  }

  /** The direction of p that bomb b threatens: all four when the agent
      stands on it, otherwise the one towards it along a shared row or
      column. */
  predicate Threatens(p: Pos, b: BombInfo, d: Action) {
    if p == b.pos then d.IsMove()
    else if p.r == b.pos.r then d == (if p.c < b.pos.c then Right else Left)
    else if p.c == b.pos.c then d == (if p.r < b.pos.r then Down else Up)
    else false
  }

  predicate Contributes(p: Pos, dist: Dists, b: BombInfo, d: Action) {
    Reaches(dist, b) && Threatens(p, b, d)
  }

  /** Raise the entry for d to at least s; a missing entry counts as 0. */
  function Bump(ret: map<Action, int>, d: Action, s: int): (r: map<Action, int>)
    ensures Entry(r, d) == Some(Raise(Entry(ret, d), s))
    ensures forall e | e != d :: Entry(r, e) == Entry(ret, e)
  {
    var prev := if d in ret then ret[d] else 0;
    ret[d := if prev >= s then prev else s]
  }

  /** The larger of a counting-map entry (0 when missing) and s. */
  function Raise(prev: Option<int>, s: int): int {
    var o := if prev.Some? then prev.value else 0;
    if o >= s then o else s
  }

  /** The entry the counting map holds for d after the bombs bs: none
      when no bomb of bs threatens d, otherwise the running maximum. */
  function Strongest(p: Pos, dist: Dists, bs: seq<BombInfo>, d: Action): Option<int> {
    if bs == [] then None
    else
      var prev := Strongest(p, dist, bs[..|bs| - 1], d);
      if Contributes(p, dist, bs[|bs| - 1], d) then Some(Raise(prev, bs[|bs| - 1].strength)) else prev
  }

  /** The running maximum is present exactly for the threatened directions
      and is the largest threatening strength, or 0 when that is larger. */
  lemma {:induction false} StrongestIsMax(p: Pos, dist: Dists, bs: seq<BombInfo>, d: Action)
    ensures Strongest(p, dist, bs, d).None? <==> forall i | 0 <= i < |bs| :: !Contributes(p, dist, bs[i], d)
    ensures Strongest(p, dist, bs, d).Some? ==> (
      && Strongest(p, dist, bs, d).value >= 0
      && (forall i | 0 <= i < |bs| && Contributes(p, dist, bs[i], d) :: bs[i].strength <= Strongest(p, dist, bs, d).value)
      && (Strongest(p, dist, bs, d).value == 0
          || exists i | 0 <= i < |bs| :: Contributes(p, dist, bs[i], d) && bs[i].strength == Strongest(p, dist, bs, d).value))
  {
    if bs != [] {
      var init := bs[..|bs| - 1];
      StrongestIsMax(p, dist, init, d);
      assert forall i | 0 <= i < |init| :: init[i] == bs[i];
      var v := Strongest(p, dist, bs, d);
      var prev := Strongest(p, dist, init, d);
      if v.Some? && v.value != 0 {
        if Contributes(p, dist, bs[|bs| - 1], d) && v.value == bs[|bs| - 1].strength {
        } else {
          var i :| 0 <= i < |init| && Contributes(p, dist, init[i], d) && init[i].strength == prev.value;
          assert bs[i] == init[i];
        }
      }
    }
  }

  function Entry(ret: map<Action, int>, d: Action): Option<int> {
    if d in ret then Some(ret[d]) else None
  }

  /** One pass of the loop over bombs: a bomb the search did not reach
      within its strength changes nothing; otherwise each direction it
      threatens is raised to its strength. */
  function AddBomb(ret: map<Action, int>, p: Pos, dist: Dists, b: BombInfo): (r: map<Action, int>)
    ensures forall d :: Entry(r, d) == if Contributes(p, dist, b, d) then Some(Raise(Entry(ret, d), b.strength)) else Entry(ret, d)
  {
    if b.pos !in dist || dist[b.pos].Inf? || dist[b.pos].steps > b.strength then ret
    else if p == b.pos then
      Bump(Bump(Bump(Bump(ret, Right, b.strength), Left, b.strength), Up, b.strength), Down, b.strength)
    else if p.r == b.pos.r then
      if p.c < b.pos.c then Bump(ret, Right, b.strength) else Bump(ret, Left, b.strength)
    else if p.c == b.pos.c then
      if p.r < b.pos.r then Bump(ret, Down, b.strength) else Bump(ret, Up, b.strength)
    else ret
  }

  /** The directions threatened by some reached bomb, each with the largest
      blast strength among the bombs threatening it (never below 0, the
      default of the source's counting map). */
  method DirectionsInRangeOfBomb(p: Pos, bombs: seq<BombInfo>, dist: Dists) returns (ret: map<Action, int>)
    ensures forall d :: d in ret <==> exists i | 0 <= i < |bombs| :: Contributes(p, dist, bombs[i], d)
    ensures forall d | d in ret :: ret[d] >= 0
    ensures forall d, i | d in ret && 0 <= i < |bombs| && Contributes(p, dist, bombs[i], d) :: bombs[i].strength <= ret[d]
    ensures forall d | d in ret :: ret[d] == 0 || exists i | 0 <= i < |bombs| :: Contributes(p, dist, bombs[i], d) && bombs[i].strength == ret[d]
  {
    ret := map[];
    for i := 0 to |bombs|
      invariant forall d :: Entry(ret, d) == Strongest(p, dist, bombs[..i], d)
    {
      assert bombs[..i + 1][..i] == bombs[..i];
      ret := AddBomb(ret, p, dist, bombs[i]);
    }
    assert bombs[..|bombs|] == bombs;
    forall d ensures (d in ret <==> exists i | 0 <= i < |bombs| :: Contributes(p, dist, bombs[i], d))
      && (d in ret ==> (ret[d] >= 0
        && (forall i | 0 <= i < |bombs| && Contributes(p, dist, bombs[i], d) :: bombs[i].strength <= ret[d])
        && (ret[d] == 0 || exists i | 0 <= i < |bombs| :: Contributes(p, dist, bombs[i], d) && bombs[i].strength == ret[d])))
    {
      StrongestIsMax(p, dist, bombs, d);
      assert Entry(ret, d) == Strongest(p, dist, bombs, d);
    }
  }

  /* ---------------------------------------------------------------------
     Enemies and nearest objects
     --------------------------------------------------------------------- */

  /** Some enemy is listed at search distance exactly 1. */
  method IsAdjacentEnemy(items: Items, dist: Dists, enemies: seq<int>) returns (r: bool)
    requires DistCovers(items, dist)
    ensures r <==> exists k, j | 0 <= k < |enemies| && 0 <= j < |Listed(items, enemies[k])| ::
      DistOf(dist, Listed(items, enemies[k])[j]) == Fin(1)
  {
    for k := 0 to |enemies|
      invariant forall k', j | 0 <= k' < k && 0 <= j < |Listed(items, enemies[k'])| ::
        DistOf(dist, Listed(items, enemies[k'])[j]) != Fin(1)
    {
      var ps := Listed(items, enemies[k]);
      for j := 0 to |ps|
        invariant forall j' | 0 <= j' < j :: DistOf(dist, ps[j']) != Fin(1)
      {
        assert ps[j] in items[enemies[k]];
        if dist[ps[j]] == Fin(1) {
          return true;
        }
      }
    }
    return false;
  }

  /** The listed positions of the given objects, object by object. */
  function Candidates(objs: seq<int>, items: Items): seq<Pos> {
    if objs == [] then [] else Listed(items, objs[0]) + Candidates(objs[1..], items)
  }

  lemma {:induction false} CandidatesCovered(objs: seq<int>, items: Items, dist: Dists)
    requires DistCovers(items, dist)
    ensures forall i | 0 <= i < |Candidates(objs, items)| :: Candidates(objs, items)[i] in dist
  {
    if objs != [] {
      CandidatesCovered(objs[1..], items, dist);
      var head := Listed(items, objs[0]);
      var rest := Candidates(objs[1..], items);
      forall i | 0 <= i < |head| + |rest| ensures (head + rest)[i] in dist {
        if i < |head| {
          assert head[i] in items[objs[0]];
        } else {
          assert (head + rest)[i] == rest[i - |head|];
        }
      }
    }
  }

  /** The largest distance in a non-empty distance map. */
  method MaxDistance(dist: Dists) returns (top: Dist)
    requires dist != map[]
    ensures top in dist.Values
    ensures forall q | q in dist :: NoFarther(dist[q], top)
  {
    var q0 :| q0 in dist;
    top := dist[q0];
    var rest := dist.Values - {top};
    while rest != {}
      invariant rest <= dist.Values && top in dist.Values
      invariant forall v | v in dist.Values && v !in rest :: NoFarther(v, top)
      decreases |rest|
    {
      var v :| v in rest;
      if !NoFarther(v, top) {
        top := v;
      }
      rest := rest - {v};
    }
    forall q | q in dist ensures NoFarther(dist[q], top) {
      assert dist[q] in dist.Values;
    }
  }

  /** The selection loop over a candidate list, with the running bound
      starting at top, a bound on every distance of the map. */
  method NearestAmong(dist: Dists, cands: seq<Pos>, radius: int, top: Dist) returns (nearest: Option<Pos>)
    requires forall i | 0 <= i < |cands| :: cands[i] in dist
    requires forall q | q in dist :: NoFarther(dist[q], top)
    ensures nearest.None? <==> forall i | 0 <= i < |cands| :: !WithinRadius(DistOf(dist, cands[i]), radius)
    ensures nearest.Some? ==> (
      && nearest.value in cands
      && WithinRadius(DistOf(dist, nearest.value), radius)
      && forall i | 0 <= i < |cands| && WithinRadius(DistOf(dist, cands[i]), radius) ::
           NoFarther(DistOf(dist, nearest.value), DistOf(dist, cands[i])))
    ensures nearest.Some? ==> exists i | 0 <= i < |cands| && cands[i] == nearest.value ::
      forall j | i < j < |cands| && WithinRadius(DistOf(dist, cands[j]), radius) ::
        !NoFarther(DistOf(dist, cands[j]), DistOf(dist, cands[i]))
  {
    nearest := None;
    var distTo := top;
    ghost var at := 0;
    for i := 0 to |cands|
      invariant nearest.None? <==> forall k | 0 <= k < i :: !WithinRadius(DistOf(dist, cands[k]), radius)
      invariant nearest.None? ==> distTo == top
      invariant nearest.Some? ==> (
        && nearest.value in cands
        && WithinRadius(DistOf(dist, nearest.value), radius)
        && distTo == DistOf(dist, nearest.value)
        && forall k | 0 <= k < i && WithinRadius(DistOf(dist, cands[k]), radius) :: NoFarther(distTo, DistOf(dist, cands[k])))
      invariant nearest.Some? ==> (
        && 0 <= at < i && cands[at] == nearest.value
        && forall j | at < j < i && WithinRadius(DistOf(dist, cands[j]), radius) :: !NoFarther(DistOf(dist, cands[j]), distTo))
    {
      var d := dist[cands[i]];
      assert d == DistOf(dist, cands[i]) && NoFarther(d, top);
      if WithinRadius(d, radius) && NoFarther(d, distTo) {
        nearest := Some(cands[i]);
        distTo := d;
        at := i;
      }
    }
  }

  /** The nearest listed position of the given objects within radius:
      none when no candidate is within radius, otherwise one whose distance
      is no larger than any other candidate's within radius (the last such
      in listing order). The running bound starts at the largest distance
      of the map, which is no smaller than any candidate's, so it selects
      exactly as a bound starting at infinity would. The source aborts on
      an empty distance map (the maximum of no values). */
  method NearestPosition(dist: Dists, objs: seq<int>, items: Items, radius: int) returns (r: Result<Option<Pos>>)
    requires DistCovers(items, dist)
    ensures r.Failure? <==> dist == map[]
    ensures r.Success? ==> (r.value.None? <==>
      forall i | 0 <= i < |Candidates(objs, items)| :: !WithinRadius(DistOf(dist, Candidates(objs, items)[i]), radius))
    ensures r.Success? && r.value.Some? ==> (
      && r.value.value in Candidates(objs, items)
      && WithinRadius(DistOf(dist, r.value.value), radius)
      && forall i | 0 <= i < |Candidates(objs, items)| && WithinRadius(DistOf(dist, Candidates(objs, items)[i]), radius) ::
           NoFarther(DistOf(dist, r.value.value), DistOf(dist, Candidates(objs, items)[i])))
    ensures r.Success? && r.value.Some? ==>
      exists i | 0 <= i < |Candidates(objs, items)| && Candidates(objs, items)[i] == r.value.value ::
        forall j | i < j < |Candidates(objs, items)| && WithinRadius(DistOf(dist, Candidates(objs, items)[j]), radius) ::
          !NoFarther(DistOf(dist, Candidates(objs, items)[j]), DistOf(dist, Candidates(objs, items)[i]))
  {
    if dist == map[] {
      return Failure;
    }
    var top := MaxDistance(dist);
    CandidatesCovered(objs, items, dist);
    var nearest := NearestAmong(dist, Candidates(objs, items), radius, top);
    return Success(nearest);
  }

  /* ---------------------------------------------------------------------
     Escaping when threatened
     --------------------------------------------------------------------- */

  /** The engine's board predicates the escape choice consults: whether a
      cell is passable, whether it is fog, and whether an escape through a
      cell with a given bomb range would leave the agent stuck. */
  datatype Terrain = Terrain(passable: Pos -> bool, fog: Pos -> bool, stuck: (Pos, int) -> bool)

  /** The four moves in the order the source tries neighbours. */
  const Neighbours: seq<Action> := [Up, Down, Left, Right]

  /** The map's keys in the order the map yields them. */
  predicate KeyOrder(order: seq<Action>, unsafe: map<Action, int>) {
    && NoDuplicates(order)
    && (forall d :: d in order <==> d in unsafe)
  }

  /** When threatened from all four sides: move d gets out. */
  predicate Escapes(p: Pos, unsafe: map<Action, int>, t: Terrain, d: Action)
    requires d in unsafe && d.IsMove()
  {
    var q := NextPosition(p, d);
    OnBoard(q) && t.passable(q) && !t.stuck(q, unsafe[d])
  }

  /** The first key of order that escapes; none when none does. */
  function FirstEscape(p: Pos, unsafe: map<Action, int>, order: seq<Action>, t: Terrain): (r: Option<Action>)
    requires forall d | d in order :: d in unsafe && d.IsMove()
    ensures r.None? <==> forall i | 0 <= i < |order| :: !Escapes(p, unsafe, t, order[i])
    ensures r.Some? ==> exists k | 0 <= k < |order| :: (order[k] == r.value && Escapes(p, unsafe, t, r.value)
      && forall j | 0 <= j < k :: !Escapes(p, unsafe, t, order[j]))
  {
    if order == [] then None
    else if Escapes(p, unsafe, t, order[0]) then Some(order[0])
    else
      var r := FirstEscape(p, unsafe, order[1..], t);
      assert forall i | 1 <= i < |order| :: order[i] == order[1..][i - 1];
      r
  }

  /** A neighbour that is on the board, not threatened, and passable or fog. */
  predicate Open(p: Pos, unsafe: map<Action, int>, t: Terrain, d: Action) {
    d != Bomb && OnBoard(NextPosition(p, d)) && d !in unsafe
    && (t.passable(NextPosition(p, d)) || t.fog(NextPosition(p, d)))
  }

  function OpenKeep(p: Pos, unsafe: map<Action, int>, t: Terrain): Action -> bool {
    d => Open(p, unsafe, t, d)
  }

  predicate StaysOnBoard(p: Pos, d: Action) {
    d != Bomb && OnBoard(NextPosition(p, d))
  }

  function OnBoardKeep(p: Pos): Action -> bool {
    d => StaysOnBoard(p, d)
  }

  /** Threatened from all four sides: the first threatened direction, in
      the map's order, that gets out; Stop when none does. */
  function EscapeAllSides(p: Pos, unsafe: map<Action, int>, order: seq<Action>, t: Terrain): (r: seq<Action>)
    requires forall d | d in order :: d in unsafe && d.IsMove()
    ensures |r| == 1 && (r[0] == Stop || r[0].IsMove())
    ensures r == [Stop] <==> forall i | 0 <= i < |order| :: !Escapes(p, unsafe, t, order[i])
    ensures r != [Stop] ==> exists k | 0 <= k < |order| :: (r == [order[k]] && Escapes(p, unsafe, t, order[k])
      && forall j | 0 <= j < k :: !Escapes(p, unsafe, t, order[j]))
  {
    var e := FirstEscape(p, unsafe, order, t);
    if e.None? then [Stop]
    else
      assert e.value in order;
      [e.value]
  }

  /** The open neighbours, in the order the source visits them: up, down,
      left, right. */
  function OpenNeighbours(p: Pos, unsafe: map<Action, int>, t: Terrain): (r: seq<Action>)
    ensures forall i | 0 <= i < |r| :: r[i].IsMove() && Open(p, unsafe, t, r[i])
    ensures forall d: Action | d.IsMove() && Open(p, unsafe, t, d) :: d in r
  {
    (if Open(p, unsafe, t, Up) then [Up] else [])
    + (if Open(p, unsafe, t, Down) then [Down] else [])
    + (if Open(p, unsafe, t, Left) then [Left] else [])
    + (if Open(p, unsafe, t, Right) then [Right] else [])
  }

  /** Not threatened from every side: the open neighbours; failing those
      the threatened directions that stay on the board, in the map's
      order; failing those Stop. */
  function SafeNeighbours(p: Pos, unsafe: map<Action, int>, order: seq<Action>, t: Terrain): (r: seq<Action>)
    requires forall d | d in order :: d.IsMove()
    ensures r != []
    ensures r == [Stop] || forall i | 0 <= i < |r| :: r[i].IsMove() && StaysOnBoard(p, r[i])
    ensures (exists d: Action :: d.IsMove() && Open(p, unsafe, t, d)) ==> r == OpenNeighbours(p, unsafe, t)
    ensures (forall d: Action | d.IsMove() :: !Open(p, unsafe, t, d)) && Filter(order, OnBoardKeep(p)) != []
        ==> r == Filter(order, OnBoardKeep(p))
    ensures r == [Stop] <==> (forall d: Action | d.IsMove() :: !Open(p, unsafe, t, d))
                             && forall i | 0 <= i < |order| :: !StaysOnBoard(p, order[i])
  {
    var safe := OpenNeighbours(p, unsafe, t);
    if safe != [] then safe
    else
      var allowed := Filter(order, OnBoardKeep(p));
      if allowed != [] then
        assert allowed[0] in order;
        allowed
      else
        assert forall i | 0 <= i < |order| :: !OnBoardKeep(p)(order[i]);
        [Stop]
  }

  /** The directions to take when some are threatened: never empty, and
      Stop only as the single choice. */
  function FindSafeDirections(p: Pos, unsafe: map<Action, int>, order: seq<Action>, t: Terrain): (r: seq<Action>)
    requires KeyOrder(order, unsafe)
    requires forall d | d in unsafe :: d.IsMove()
    ensures r != []
    ensures Stop in r ==> r == [Stop]
    ensures forall i | 0 <= i < |r| :: r[i] == Stop || r[i].IsMove()
  {
    if |unsafe| == 4 then
      var r := EscapeAllSides(p, unsafe, order, t);
      assert r == [r[0]];
      r
    else
      var r := SafeNeighbours(p, unsafe, order, t);
      assert r != [Stop] ==> forall i | 0 <= i < |r| :: r[i] != Stop;
      r
  }

  /* ---------------------------------------------------------------------
     The final random-move candidates
     --------------------------------------------------------------------- */

  /** The directions the random move starts from, in the source's order. */
  const Initial: seq<Action> := [Stop, Left, Right, Up, Down]

  /** A direction whose next cell is on the board and passable. */
  predicate Valid(p: Pos, t: Terrain, d: Action) {
    d != Bomb && OnBoard(NextPosition(p, d)) && t.passable(NextPosition(p, d))
  }

  function ValidKeep(p: Pos, t: Terrain): Action -> bool {
    d => Valid(p, t, d)
  }

  function NotStop(): Action -> bool {
    d => d != Stop
  }

  /** The list with the first occurrence of x removed. */
  function RemoveFirst(xs: seq<Action>, x: Action): (r: seq<Action>)
    ensures forall i | 0 <= i < |r| :: r[i] in xs
    ensures forall i | 0 <= i < |xs| && xs[i] != x :: xs[i] in r
    ensures x in xs ==> |r| == |xs| - 1
    ensures NoDuplicates(xs) ==> NoDuplicates(r) && x !in r
  {
    if xs == [] then []
    else if xs[0] == x then
      assert forall i | 1 <= i < |xs| :: xs[i] == xs[1..][i - 1];
      xs[1..]
    else
      var rest := RemoveFirst(xs[1..], x);
      var r := [xs[0]] + rest;
      assert forall i | 1 <= i < |xs| :: xs[i] == xs[1..][i - 1];
      assert NoDuplicates(xs) ==> xs[0] !in xs[1..];
      r
  }

  /** The visited list after this tick: the current position appended and
      only the last six positions kept. */
  function RememberPosition(recent: seq<Pos>, p: Pos): (r: seq<Pos>)
    ensures |r| == if |recent| + 1 < 6 then |recent| + 1 else 6
    ensures r[|r| - 1] == p
    ensures forall i | 0 <= i < |r| - 1 :: r[i] == recent[|recent| - (|r| - 1) + i]
  {
    var all := recent + [p];
    if |all| <= 6 then all else all[|all| - 6..]
  }

  /** A move the random choice may take: onto an on-board passable cell
      outside every blast line. */
  predicate Acceptable(p: Pos, t: Terrain, bombs: seq<BombInfo>, d: Action) {
    d.IsMove() && Valid(p, t, d) && SafeMove(p, bombs, d)
  }

  /** A list the random choice may draw from: no repeats, Stop only as the
      single entry, every other entry an acceptable move. */
  predicate CandidateList(p: Pos, t: Terrain, bombs: seq<BombInfo>, xs: seq<Action>) {
    && NoDuplicates(xs)
    && (Stop in xs ==> xs == [Stop])
    && forall i | 0 <= i < |xs| :: xs[i] == Stop || Acceptable(p, t, bombs, xs[i])
  }

  /** The initial directions whose next cell is on the board and passable,
      in the initial order and without repeats. */
  function ValidInitial(p: Pos, t: Terrain): (r: seq<Action>)
    ensures NoDuplicates(r)
    ensures forall i | 0 <= i < |r| :: (r[i] == Stop || r[i].IsMove()) && Valid(p, t, r[i])
    ensures forall d :: d in r <==> Valid(p, t, d)
  {
    assert NoDuplicates(Initial);
    assert forall d: Action | d != Bomb :: d in Initial;
    FilterNoDuplicates(Initial, ValidKeep(p, t));
    Filter(Initial, ValidKeep(p, t))
  }

  /** The valid initial directions that lead outside every blast line. */
  method SafeInitial(p: Pos, t: Terrain, bombs: seq<BombInfo>) returns (safe: seq<Action>)
    ensures NoDuplicates(safe)
    ensures forall d | d in safe :: d == Stop || Acceptable(p, t, bombs, d)
    ensures forall i | 0 <= i < |safe| :: safe[i] != Bomb
    ensures forall d :: d in safe <==> Valid(p, t, d) && SafeMove(p, bombs, d)
  {
    var valid := ValidInitial(p, t);
    safe := FilterUnsafeDirections(p, valid, bombs);
    FilterNoDuplicates(valid, SafeKeep(p, bombs));
  }

  /** Stop is dropped when there is a choice, and is the fallback when
      nothing is left. */
  function PreferMoving(xs: seq<Action>): (r: seq<Action>)
    ensures r != []
    ensures Stop in r ==> r == [Stop]
    ensures forall i | 0 <= i < |r| :: r[i] == Stop || r[i] in xs
    ensures forall d | d in xs && d != Stop :: d in r
    ensures |xs| > 1 && NoDuplicates(xs) ==> Stop !in r
    ensures NoDuplicates(xs) ==> NoDuplicates(r)
  {
    if |xs| > 1 then
      var ys := Filter(xs, NotStop());
      assert NoDuplicates(xs) ==> xs[0] != Stop || xs[1] != Stop;
      assert NoDuplicates(xs) ==> NoDuplicates(ys) by {
        if NoDuplicates(xs) {
          FilterNoDuplicates(xs, NotStop());
        }
      }
      if ys == [] then [Stop] else ys
    else if xs == [] then [Stop]
    else
      assert xs == [xs[0]];
      xs
  }

  /** No valid, safe direction (Stop included) leads to an unvisited cell. */
  predicate AllVisited(p: Pos, t: Terrain, bombs: seq<BombInfo>, recent: seq<Pos>) {
    forall e: Action :: Valid(p, t, e) && SafeMove(p, bombs, e) ==> !Unvisited(p, recent, e)
  }

  /** A move the random choice prefers: acceptable, and unvisited unless
      every valid safe direction is visited. */
  predicate Preferred(p: Pos, t: Terrain, bombs: seq<BombInfo>, recent: seq<Pos>, d: Action) {
    Acceptable(p, t, bombs, d) && (Unvisited(p, recent, d) || AllVisited(p, t, bombs, recent))
  }

  /** The valid, safe, preferably unvisited directions of the initial list,
      without Stop when there is a choice, and Stop when nothing is left:
      exactly the preferred moves, or Stop alone when there are none. */
  method BaseCandidates(p: Pos, t: Terrain, bombs: seq<BombInfo>, recent: seq<Pos>) returns (r: seq<Action>)
    ensures r != []
    ensures CandidateList(p, t, bombs, r)
    ensures forall d: Action | d.IsMove() :: d in r <==> Preferred(p, t, bombs, recent, d)
    ensures Stop in r <==> forall d: Action | d.IsMove() :: !Preferred(p, t, bombs, recent, d)
  {
    var safe := SafeInitial(p, t, bombs);
    var unvisited := FilterRecentlyVisited(safe, p, recent);
    assert forall i | 0 <= i < |unvisited| :: unvisited[i] == Stop || Acceptable(p, t, bombs, unvisited[i]);
    r := PreferMoving(unvisited);
    forall d: Action | d.IsMove()
      ensures d in r <==> Preferred(p, t, bombs, recent, d)
    {
      UnvisitedPreferred(p, t, bombs, recent, safe, d);
    }
    assert r[0] in r;
  }

  /** After the recently-visited filter, the moves left of the valid safe
      directions are exactly the preferred ones. */
  lemma UnvisitedPreferred(p: Pos, t: Terrain, bombs: seq<BombInfo>, recent: seq<Pos>, safe: seq<Action>, d: Action)
    requires forall e :: e in safe <==> Valid(p, t, e) && SafeMove(p, bombs, e)
    requires d.IsMove()
    ensures d in (if Filter(safe, UnvisitedKeep(p, recent)) == [] then safe else Filter(safe, UnvisitedKeep(p, recent)))
        <==> Preferred(p, t, bombs, recent, d)
  {
    var kept := Filter(safe, UnvisitedKeep(p, recent));
    if !AllVisited(p, t, bombs, recent) {
      var e: Action :| Valid(p, t, e) && SafeMove(p, bombs, e) && Unvisited(p, recent, e);
      assert e in safe && UnvisitedKeep(p, recent)(e);
      assert e in kept;
      if Preferred(p, t, bombs, recent, d) {
        assert d in safe && UnvisitedKeep(p, recent)(d);
      }
      if d in kept {
        assert UnvisitedKeep(p, recent)(d);
      }
    }
  }

  /** Removes every dangerous move from the candidates, keeping Stop when
      nothing is left. */
  method RemoveDangerous(p: Pos, t: Terrain, bombs: seq<BombInfo>, xs: seq<Action>, dangerous: seq<Action>)
    returns (r: seq<Action>)
    requires CandidateList(p, t, bombs, xs)
    ensures r != []
    ensures CandidateList(p, t, bombs, r)
    ensures forall d | d in r && d != Stop :: d in xs && d !in dangerous
    ensures forall d | d in xs && d !in dangerous :: d in r
  {
    r := xs;
    for i := 0 to |dangerous|
      invariant CandidateList(p, t, bombs, r)
      invariant forall k | 0 <= k < i :: dangerous[k] !in r
      invariant forall d | d in r :: d in xs
      invariant forall d | d in xs && d !in dangerous[..i] :: d in r
    {
      if dangerous[i] in r {
        r := RemoveFirst(r, dangerous[i]);
      }
    }
    assert dangerous[..|dangerous|] == dangerous;
    if |r| == 0 {
      r := [Stop];
    }
  }

  /** The candidates the random move is drawn from, and the visited list
      after the tick. The candidates are never empty; they hold Stop only
      as the single candidate; every other candidate is a move to an
      on-board passable cell outside every blast line and not among the
      dangerous moves. */
  method ShapeCandidates(p: Pos, t: Terrain, bombs: seq<BombInfo>, recent: seq<Pos>, dangerous: seq<Action>)
    returns (r: seq<Action>, visited: seq<Pos>)
    ensures r != []
    ensures Stop in r ==> r == [Stop]
    ensures forall d | d in r && d != Stop :: Acceptable(p, t, bombs, d) && d !in dangerous
    ensures forall d: Action | d.IsMove() :: d in r <==> Preferred(p, t, bombs, recent, d) && d !in dangerous
    ensures Stop in r <==> forall d: Action | d.IsMove() :: !(Preferred(p, t, bombs, recent, d) && d !in dangerous)
    ensures NoDuplicates(r)
    ensures visited == RememberPosition(recent, p)
    ensures |visited| <= 6
  {
    var base := BaseCandidates(p, t, bombs, recent);
    visited := RememberPosition(recent, p);
    r := RemoveDangerous(p, t, bombs, base, dangerous);
    assert r[0] in r;
  }
}
